=== FILE: README.md ===
# Custom-function metadata extraction, modelled in Dafny

This project models the metadata generator of the HeroLink Excel add-in
(`src/utils/custom-functions/generate/generate.js`). `parseTree` reads a
TypeScript source file. Every top-level function declaration whose JSDoc
carries `@customfunction` becomes three things:

- an `IFunction` record with its id, display name, description, help URL,
  parameters, result and options;
- an association of its JavaScript name with the id;
- an "extra" holding the diagnostics reported for it.

The three name spaces are checked for case-insensitive repeats: function
names, display names and ids.

The model is a set of pure functions over immutable datatypes.

- `Syntax`: the part of the parsed file the extractor looks at.
- `Metadata`: the JSON output as its consumer sees it. A deleted or
  `undefined` field is `None`.
- `Text`: ASCII case mapping, `split(" ")`, `trim()`, line-ending
  normalisation and UTF-16 length.
- `Log`: `logError`.
- `Types`: type resolution and array dimensionality.
- `JsDoc`: tag lookup, the `@param` dictionaries and optionality.
- `Roles`: streaming, cancelable and invocation parameters.
- `Validate`: ids, display names and repeats.
- `Options`, `Results`, `Parameters`: the three sub-records.
- `Extract`: everything computed for one declaration.
- `Walk`: the declaration walk and `ParseTree`.
- `Examples`: worked declarations with their output.

The walk is written for any extraction function that yields upper-case ids
and no repeat diagnostics of its own. `ParseTree` instantiates it with the
extraction of `Extract`.

`parseTree` has no output at all when a tagged declaration without a name
(`export default function`) takes none of the streaming early returns and
has a `@returns` type whose kind differs from its declared return type:
reporting the mismatch reads the missing name and throws. A declaration that
is not streaming never takes an early return; a streaming one reaches the
check when its handler is declared with one type argument and it returns
`void`. `Walk.ParseTreeOutcome` is the result of a call, `None` in that case.

Diagnostics are a datatype `Diagnostic(kind, pos)` rather than strings. Each
kind stands for one message of the source. The position is the 0-based
position of the node. `Log.LogError` gives the rendering of a message with
its position, and its round-trip lemma shows the position can be read back.

Where the documentation and the code differ, the model follows the code:

- A streaming handler typed only in the documentation reports its value
  type even when it is `any`.
- The two streaming errors leave the result record at its unstripped
  default (`scalar`, `any`).
- `Array<number[]>` is a scalar `any`, because the generic-array walk
  follows type references only (`Examples.MixedArraySyntax`).

## Model

| member | source | states |
|---|---|---|
| Text.CaseInsensitiveIffSameUpper | src/utils/custom-functions/generate/generate.js:221-225 | two strings are equal ignoring case exactly when their upper-case forms are equal |
| Text.UpperIdempotent | src/utils/custom-functions/generate/generate.js:286-288 | upper-casing an upper-cased string changes nothing |
| Text.Split | src/utils/custom-functions/generate/generate.js:95 | `split(" ")` gives at least one part and no part contains the separator |
| Text.JoinSplit | src/utils/custom-functions/generate/generate.js:95 | joining the parts of a split with the separator gives back the original text |
| Text.SplitJoin | src/utils/custom-functions/generate/generate.js:95 | splitting a join of separator-free parts gives back those parts |
| Text.Trim | src/utils/custom-functions/generate/generate.js:606 | `trim()` returns an infix of the input with no whitespace left at either end, having removed only whitespace |
| Text.TrimTrimmed | src/utils/custom-functions/generate/generate.js:606 | a string without whitespace at its ends is left as it is, so trimming is idempotent |
| Text.NormalizeLineEndings | src/utils/custom-functions/generate/generate.js:507-509 | no CR remains, the text does not grow, it is empty only when the input is, and text without CR is unchanged |
| Text.NormalizeLineEndingsKeepsContent | src/utils/custom-functions/generate/generate.js:507-509 | every character other than CR and LF is kept in order, and normalising twice equals normalising once |
| Text.NormalizeLineEndingsKeepsLines | src/utils/custom-functions/generate/generate.js:507-509 | every CR LF pair, lone CR and lone LF becomes exactly one LF in place: the text keeps its list of lines |
| Text.LinesDetermineText | src/utils/custom-functions/generate/generate.js:507-509 | two texts without CR that have the same lines are equal, so the normalised text is the only CR-free text with the lines of the input |
| Text.Utf16Length | src/utils/custom-functions/generate/generate.js:252 | the JavaScript length lies between the number of characters and twice that, and equals it inside the Basic Multilingual Plane |
| Log.Decimal | src/utils/custom-functions/generate/generate.js:872 | the rendering of a number is a non-empty run of digits without a leading zero |
| Log.DecimalRoundTrip | src/utils/custom-functions/generate/generate.js:872 | reading the rendered digits back gives the number |
| Log.LogError | src/utils/custom-functions/generate/generate.js:870-875 | without a position the message is unchanged; with one it starts with the message and grows by at least six characters |
| Log.LogErrorRoundTrip | src/utils/custom-functions/generate/generate.js:870-875 | the message and the 1-based line and column can be read back off any logged string |
| Types.ArrayNodeShapeSpec | src/utils/custom-functions/generate/generate.js:798-815 | for `T[]...[]` the dimensionality is the number of nested `[]` and the kind is that of the innermost element |
| Types.RefNodeShapeSpec | src/utils/custom-functions/generate/generate.js:816-835 | for `Array<...>` the dimensionality is the deepest level of the first-argument chain that holds a simple keyword, which supplies the kind; with no such level it is 0 and `any` |
| Types.ParamType | src/utils/custom-functions/generate/generate.js:745-777 | no annotation gives `any`; an enum reference gives `any`; any other non-`Array` reference gives `any` and an invalid-type diagnostic; an `Array` reference without exactly one type argument gives `any` and no diagnostic; an annotation that is neither a reference nor array syntax gets the `TYPE_MAPPINGS` entry of its kind; the type is `undefined` exactly when an unmapped-type diagnostic is reported at the node |
| Types.PlainAnnotationTypes | src/utils/custom-functions/generate/generate.js:21-31 | `number`, `string` and `boolean` map to themselves; `any`, `object`, `void`, `enum`, unions and tuples map to `any`, without a diagnostic; any other kind is unmapped and reported at the node |
| Types.ArraySyntaxClassification | src/utils/custom-functions/generate/generate.js:782-851 | array syntax gives the innermost element's type; it is a matrix iff nested at least twice and repeating iff nested once or three times |
| Types.GenericArrayClassification | src/utils/custom-functions/generate/generate.js:494-506 | for `Array<...>`, matrix iff the deepest simple keyword is at level 2 or more and repeating iff at level 1 or 3; with none, a scalar non-repeating `any` |
| JsDoc.FindTag | src/utils/custom-functions/generate/generate.js:528-530 | the result is the first tag whose lower-cased name matches, or nothing when none matches |
| JsDoc.TagLookupIgnoresCase | src/utils/custom-functions/generate/generate.js:578-580 | respelling a tag name with the same lower-case form changes neither `hasTag` nor `getTagComment` |
| JsDoc.Dictionary | src/utils/custom-functions/generate/generate.js:601-620 | a `@param` dictionary has a key exactly for each name some tag gives |
| JsDoc.DictionaryLastWins | src/utils/custom-functions/generate/generate.js:644-654 | the dictionary entry for a name is the value from the last tag naming it |
| JsDoc.DocParamType | src/utils/custom-functions/generate/generate.js:447 | the documented type of a parameter comes from the first `@param` tag naming it with a type, and is absent iff there is none |
| JsDoc.ParamOptional | src/utils/custom-functions/generate/generate.js:852-865 | `?`, a default value or `...` makes a parameter optional; otherwise it is optional iff its bracket entry says so |
| JsDoc.ParamOptionalFromDoc | src/utils/custom-functions/generate/generate.js:852-865 | without a syntactic marker, the bracket on the last `@param` tag for the parameter decides |
| Roles.RolesOf | src/utils/custom-functions/generate/generate.js:659-740 | a declaration with a role always has a last parameter |
| Roles.ParametersToParse | src/utils/custom-functions/generate/generate.js:103-106 | the parameters to parse are a prefix of the declared ones, one shorter exactly when the last parameter has a role, and all of them otherwise |
| Roles.DocRolesIgnoreCase | src/utils/custom-functions/generate/generate.js:659-690 | two `@param` type texts with the same lower-case form give the same roles |
| Roles.DeclaredNamesAreCaseSensitive | src/utils/custom-functions/generate/generate.js:677-690 | a declared reference whose name is not exactly one of the role names, a spelling in another case included, gives no role when the `@param` type text names none, and the parameter stays in the list |
| Validate.NormalizeId | src/utils/custom-functions/generate/generate.js:286-288 | the id keeps its length, is upper-case and equals the input ignoring case |
| Validate.IdAndName | src/utils/custom-functions/generate/generate.js:134-135 | the id is upper-case; the display name is the id, or a non-empty word without spaces |
| Validate.IdAndNameOfWords | src/utils/custom-functions/generate/generate.js:95-135 | for a comment of space-free words: the id is the upper-cased first word (the function name when that word is empty), the display name is the second word (the id when absent or empty), and later words are ignored |
| Validate.ValidateId | src/utils/custom-functions/generate/generate.js:242-256 | a bad character is reported iff one is present, excess length iff over 128 UTF-16 units, and nothing iff the id is acceptable |
| Validate.ValidateName | src/utils/custom-functions/generate/generate.js:261-281 | the empty name gets the missing, letter-first and characters diagnostics; otherwise each diagnostic is reported iff its condition holds; nothing iff the name is acceptable |
| Validate.CheckForDuplicate | src/utils/custom-functions/generate/generate.js:206-214 | true iff some entry equals the item ignoring case |
| Validate.NormalizedIdRepeats | src/utils/custom-functions/generate/generate.js:143-147 | among upper-cased ids, a case-insensitive repeat is an exact repeat |
| Extract.OptionsOfRecord | src/utils/custom-functions/generate/generate.js:294-301 | in the record as read back, `stream` and `cancelable` are set iff the last parameter has that role or the tag is present, and `volatile`, `requiresAddress` and `requiresParameterAddresses` iff their tag is present |
| Options.OptionDiagnostics | src/utils/custom-functions/generate/generate.js:302-315 | nothing unless an address option is set; then a missing-invocation diagnostic after the parameter list iff the last parameter has no role, a streaming-conflict diagnostic at the function iff it is streaming, never both |
| Options.StripOptions | src/utils/custom-functions/generate/generate.js:158-182 | the record is removed iff every flag is false, no false field is written, and reading the record back gives the flags |
| Results.StripResult | src/utils/custom-functions/generate/generate.js:421-429 | neither scalar nor `any` is written, and reading the record back gives the type and dimensionality |
| Results.PromiseInner | src/utils/custom-functions/generate/generate.js:364-369 | a one-argument `Promise<T>` stands for `T`; anything else stands for itself |
| Results.StreamingEarlyExit | src/utils/custom-functions/generate/generate.js:331-361 | a handler without a declared type returns the documented value type with no diagnostic; a declared type without exactly one type argument, or a non-`void` return type, returns the default record with one diagnostic at the handler; otherwise the branch continues with the type argument |
| Results.ReturnMismatch | src/utils/custom-functions/generate/generate.js:388-395 | a mismatch is reported iff both return types exist and their kinds differ |
| Results.Result | src/utils/custom-functions/generate/generate.js:323-431 | no return type anywhere gives an empty record; the default record is returned iff a streaming error fires; outside the early returns the record reads back as the type and dimensionality of the `@returns` type, else of the handler's type argument, else of the declared return type, each with `Promise<T>` read as `T`, and the diagnostics are exactly those of the handler's type argument or declared return type, then the mismatch and those of the `@returns` type; an early return reports only its own diagnostic; scalar and `any` are stripped except after an early return; at most three typing diagnostics |
| Results.DocumentedHandlerResult | src/utils/custom-functions/generate/generate.js:334-348 | a handler typed only in the documentation takes its value type from the streaming table and reports nothing |
| Results.DocReturnOverrides | src/utils/custom-functions/generate/generate.js:387-419 | with a `@returns {T}` tag the declared return type does not affect the record |
| Results.PromiseIsTransparent | src/utils/custom-functions/generate/generate.js:363-386 | a declared `Promise<T>` gives the same record as a declared `T` |
| Parameters.EffectiveType | src/utils/custom-functions/generate/generate.js:442-458 | the declared annotation wins; without it the type of the first `@param` tag naming the parameter with a type is used; none iff neither exists |
| Parameters.ParamMismatch | src/utils/custom-functions/generate/generate.js:447-455 | a mismatch is reported iff both annotations exist and their kinds differ |
| Parameters.ParameterMeta | src/utils/custom-functions/generate/generate.js:440-484 | the record keeps the name and has the type resolved from the effective annotation; it is optional, repeating, a matrix or described exactly when the source says so; an untyped parameter is a scalar `any`; the diagnostics are the kind mismatch followed by those of resolving the type |
| Parameters.DeclaredTypeWins | src/utils/custom-functions/generate/generate.js:456-459 | with a declared annotation, the record does not depend on the documented types |
| Parameters.ParameterList | src/utils/custom-functions/generate/generate.js:438-488 | one record per parameter in order, with its name; only typing diagnostics, at most two per parameter |
| Parameters.ParameterListReports | src/utils/custom-functions/generate/generate.js:438-488 | every diagnostic of the i-th parameter (type mismatch with its `@param` tag, invalid or unmapped type) is reported by the list |
| Parameters.ParameterListReportsOnly | src/utils/custom-functions/generate/generate.js:438-488 | every diagnostic of the list is a diagnostic of one of the parameters |
| Parameters.ParameterListClean | src/utils/custom-functions/generate/generate.js:438-488 | the list reports nothing iff no parameter reports anything |
| Parameters.ParameterListAt | src/utils/custom-functions/generate/generate.js:438-488 | the i-th record is the record of the i-th parameter |
| Extract.TextField | src/utils/custom-functions/generate/generate.js:183-189 | a text field is removed iff the text is empty; otherwise it contains no CR, keeps every other character in order and has the same lines as the text |
| Extract.Record | src/utils/custom-functions/generate/generate.js:89-191 | the id and display name come from the tag comment; the parameters are the parameter list of the declared parameters, minus a last parameter that has a role, with the same names; the result is the declaration's result record; the description and help URL are the text fields of the JSDoc text and of the `@helpurl` comment; the options read back as the flags and are removed iff no flag is set |
| Extract.Checks | src/utils/custom-functions/generate/generate.js:109-137 | every parameter, result, option, id and display-name diagnostic of the declaration is reported, nothing else is, and none of them is a repeat |
| Extract.ChecksClean | src/utils/custom-functions/generate/generate.js:109-137 | a declaration reports nothing of its own iff its parameters, result, options, id and display name each report nothing |
| Extract.ExtractionOf | src/utils/custom-functions/generate/generate.js:89-191 | the extraction's record is the declaration's record with an upper-case id, and its diagnostics are the declaration's checks, none a repeat |
| Walk.RepeatDiagnostic | src/utils/custom-functions/generate/generate.js:84-87 | exactly one repeat diagnostic of its name space iff an earlier entry matches ignoring case, and none of another |
| Walk.Errors | src/utils/custom-functions/generate/generate.js:84-147 | each name space's repeat count is 1 iff its list already holds the name ignoring case, and 0 otherwise; every diagnostic of the extraction is kept, and anything else is one of the three repeat diagnostics at the declaration; the extra is exactly the extraction's diagnostics iff no name space repeats |
| Walk.Step | src/utils/custom-functions/generate/generate.js:77-198 | nested declarations change nothing; a top-level one joins the function names; only a tagged one appends a record, an extra, an association, a display name and an id |
| Walk.StepConsistent | src/utils/custom-functions/generate/generate.js:138-192 | a step keeps the record, extra, association, id and name lists in step |
| Walk.WalkShape | src/utils/custom-functions/generate/generate.js:77-198 | the function names are those of all top-level declarations; the i-th record, association and extra belong to the i-th tagged top-level declaration, and the extra holds every diagnostic of its extraction and otherwise only repeat diagnostics |
| Walk.WalkRepeats | src/utils/custom-functions/generate/generate.js:138-147 | the i-th extra reports a repeated id iff an earlier record has the same id, and a repeated display name iff an earlier one matches ignoring case |
| Walk.WalkPrefix | src/utils/custom-functions/generate/generate.js:148-193 | the output after a prefix of the declarations is a prefix of the final output |
| Walk.WalkSourceRepeats | src/utils/custom-functions/generate/generate.js:84-88 | a tagged declaration's extra reports a repeated function name iff an earlier top-level declaration has the same name ignoring case |
| Walk.Extractor | src/utils/custom-functions/generate/generate.js:89-191 | the extraction used by the walk yields the declaration's record and satisfies what the walk relies on |
| Walk.ParseTree | src/utils/custom-functions/generate/generate.js:54-70 | one record, extra and association per tagged top-level declaration, in order, each the declaration's own; the extra holds every diagnostic of the declaration's checks and otherwise only its repeat diagnostics; the repeat counts agree with the earlier records |
| Walk.AddressNeedsInvocationReported | src/utils/custom-functions/generate/generate.js:302-308 | a tagged declaration with `@requiresAddress` and no invocation parameter has the missing-invocation diagnostic in its extra, at the end of its parameter list |
| Walk.NamedNeverThrow | src/utils/custom-functions/generate/generate.js:83 | when every tagged declaration has a name, `parseTree` returns its output |
| Walk.NamelessMismatchThrows | src/utils/custom-functions/generate/generate.js:388-390 | a tagged declaration without a name that takes no streaming early return and whose `@returns` kind differs from its declared return type makes `parseTree` throw, so there is no output |
| Walk.ParseTreeSourceRepeats | src/utils/custom-functions/generate/generate.js:84-88 | in a file, a tagged declaration's extra reports a repeated function name iff an earlier top-level declaration has that name ignoring case |
| Walk.WalkErrorsBounded | src/utils/custom-functions/generate/generate.js:84-147 | the i-th extra holds only diagnostics of its declaration's extraction and that declaration's three possible repeat diagnostics |
| Walk.SingleDeclaration | src/utils/custom-functions/generate/generate.js:77-147 | a file of one tagged declaration gives its record, its association and an extra of exactly its own diagnostics |
| Walk.NoTaggedNoOutput | src/utils/custom-functions/generate/generate.js:89 | a file without tagged top-level declarations gives an empty output |
| Walk.WalkUntagged | src/utils/custom-functions/generate/generate.js:79-89 | over nested or untagged declarations the walk only collects the top-level function names and outputs nothing |
| Examples.AddRecord | src/utils/custom-functions/generate/generate.js:149-191 | the full record of a documented two-parameter `add` |
| Examples.AddChecks | src/utils/custom-functions/generate/generate.js:109-137 | `add` reports no parameter, result, option, id or display-name diagnostic |
| Examples.AddFileIsClean | src/utils/custom-functions/generate/generate.js:54-147 | a file holding only `add` gives its record and an empty extra |
| Examples.StreamingClock | src/utils/custom-functions/generate/generate.js:659-684 | a declared `CustomFunctions.StreamingInvocation<string>` handler gives the streaming role, is dropped from the parameters, gives a `string` result and sets `stream` |
| Examples.MixedArraySyntax | src/utils/custom-functions/generate/generate.js:816-835 | `Array<number[]>` resolves to a scalar, non-repeating `any` |
| Examples.GenericBooleanMatrix | src/utils/custom-functions/generate/generate.js:816-851 | `Array<Array<boolean>>` resolves to a non-repeating `boolean` matrix |
| Examples.IdAndDisplayName | src/utils/custom-functions/generate/generate.js:134-135 | `@customfunction addTwo Add_Two` gives the id `ADDTWO` and the display name `Add_Two` |
| Examples.FooIdAndNameRepeats | src/utils/custom-functions/generate/generate.js:138-147 | of `foo` then `Foo`, only the second repeats the id and the display name |
| Examples.FooSourceRepeat | src/utils/custom-functions/generate/generate.js:84-87 | of `foo` then `Foo`, the second repeats the function name |

## Left out

- Parsing: the TypeScript compiler and its JSDoc API are not modelled. The input is the `SourceFile` datatype: enum names, and function declarations in depth-first order with their JSDoc already extracted. `ts.forEachChild`, `getText` and `getFullText` are therefore not modelled.
- `getPosition`: positions are given with each node, 0-based, and not computed from offsets. Only `logError` turns them 1-based.
- Validate.ValidateName: the Unicode letter class `\pL` is a parameter `letter` and is not defined here.
- Validate.NormalizeId: `toLocaleUpperCase` is modelled as ASCII upper-casing. Locale and non-ASCII case mappings are not modelled.
- Validate.CheckForDuplicate: `localeCompare` with accent sensitivity is modelled as ASCII case-insensitive equality. Other locale-specific equalities are not modelled.
- Roles.RolesOf: `toLocaleLowerCase` on `@param` type texts is ASCII lower-casing. Lookups of keys inherited from `Object.prototype` (such as `constructor`) are not modelled.
- Roles.RolesOf: its contract states only that a role needs a last parameter. What each role depends on is stated by Roles.DocRolesIgnoreCase, Roles.DeclaredNamesAreCaseSensitive and Examples.StreamingClock.
- Results.StreamingEarlyExit: the test that the return type is `void` compares the node's kind, not its text with comments. A `void` preceded by a comment is treated as `void` here.
- Diagnostic wording: each message is represented by its kind and arguments. The exact English text is not modelled.
- Parameters with destructuring patterns have the empty name in the model. The source would read `undefined` there.
- A type reference with an empty argument list (`Foo<>`) inside `Array<...>` makes the source's generic-array walk throw. The model stops the walk there instead.
- A JSDoc comment or tag comment that the compiler gives as a node list, not a string, is modelled by its text. The source differs there: `normalizeLineEndings` calls `replace` on the list and throws (generate.js:507-508), and a tag comment is rendered by `toString()` as `[object Object]` (generate.js:538, 605).
- An untagged top-level function also records a repeated-name diagnostic, but nothing keeps it. The model records only its name, which has the same effect on the output.
- Files other than `generate.js` are not part of this model: the add-in's registration, task pane and function bodies.

=== FILE: common.dfy ===
/** Small shared vocabulary: an optional value, used for every JavaScript
    field or lookup that may be `undefined`. */
module Common {

  datatype Option<T> = None | Some(value: T) {

    /** The wrapped value, or `default` when there is none. */
    function GetOr(default: T): T {
      match this
      case Some(v) => v
      case None => default
    }
  }
}

=== FILE: examples.dfy ===
/** Worked declarations, each with the output the extractor gives for it. */
module Examples {
  import opened Common
  import opened Text
  import opened Log
  import opened Syntax
  import opened Metadata
  import opened Types
  import opened JsDoc
  import opened Roles
  import opened Validate
  import opened Options
  import opened Results
  import opened Parameters
  import opened Extract
  import opened Walk

  /** `function add(first: number, second: number): number`, documented
      "Adds two numbers." and tagged `@customfunction`, with a described
      `@param` tag per parameter. */
  function AddDecl(): FuncDecl {
    FuncDecl(
      "add", true, Pos(6, 0),
      [Param("first", Some(KeywordType(NumberKeyword, Pos(6, 20))), false, false, false, Pos(6, 13)),
       Param("second", Some(KeywordType(NumberKeyword, Pos(6, 36))), false, false, false, Pos(6, 28))],
      Pos(6, 42),
      Some(KeywordType(NumberKeyword, Pos(6, 45))), None,
      "Adds two numbers.",
      [Tag("customfunction", "")],
      [DocParam("first", None, false, "First number"), DocParam("second", None, false, "- Second number")])
  }

  lemma AddTypeTexts()
    ensures ParamTypeTexts(AddDecl().docParams) == map["first" := "any", "second" := "any"]
  {
  }

  lemma AddBracketed()
    ensures ParamBracketed(AddDecl().docParams) == map["first" := false, "second" := false]
  {
  }

  lemma FirstComment()
    ensures DocComment(AddDecl().docParams[0]) == "First number"
  {
    TrimTrimmed("First number");
  }

  /** The leading `-` of a `@param` comment and the space after it are dropped. */
  lemma SecondComment()
    ensures DocComment(AddDecl().docParams[1]) == "Second number"
  {
    assert " Second number"[1..] == "Second number";
    assert LeadingWhitespace(" Second number") == 1;
    TrimTrimmed("Second number");
  }

  lemma AddDescriptions()
    ensures ParamDescriptions(AddDecl().docParams) == map["first" := "First number", "second" := "Second number"]
  {
    var ps := AddDecl().docParams;
    DictionaryOfTwo(ps[0], ps[1], DocComment);
    assert ps == [ps[0], ps[1]];
    FirstComment();
    SecondComment();
  }

  /** A dictionary of two `@param` tags. */
  lemma DictionaryOfTwo<V>(a: DocParam, b: DocParam, value: DocParam -> V)
    ensures Dictionary([a, b], value) == map[a.name := value(a)][b.name := value(b)]
  {
    assert [a, b][..1] == [a];
    assert [a][..0] == [];
  }

  lemma AddRoles(d: FuncDecl)
    requires d == AddDecl()
    ensures RolesOf(d.parameters, ParamTypeTexts(d.docParams)) == Roles(false, false, false)
  {
    AddTypeTexts();
    assert Lower("any") == "any";
  }

  lemma AddParameter(i: nat)
    requires i < 2
    ensures ParameterMeta(AddDecl().parameters[i], DocInfoOf(AddDecl()), []).0 ==
              if i == 0 then ParamMeta("first", Some(Number), None, None, None, Some("First number"))
              else ParamMeta("second", Some(Number), None, None, None, Some("Second number"))
  {
    AddDescriptions();
    AddBracketed();
  }

  /** The two parameters: typed `number` from their annotations, described
      from their `@param` tags, neither optional nor repeating. */
  lemma AddParameters(d: FuncDecl)
    requires d == AddDecl()
    ensures ParameterList(ParametersToParse(d.parameters, ParamTypeTexts(d.docParams)), DocInfoOf(d), []).0 ==
              [ParamMeta("first", Some(Number), None, None, None, Some("First number")),
               ParamMeta("second", Some(Number), None, None, None, Some("Second number"))]
  {
    AddRoles(d);
    assert ParametersToParse(d.parameters, ParamTypeTexts(d.docParams)) == d.parameters;
    AddParameter(0);
    AddParameter(1);
    ListOfTwo(d.parameters, DocInfoOf(d), []);
  }

  lemma ListOfTwo(ps: seq<Param>, info: DocInfo, enumNames: seq<string>)
    requires |ps| == 2
    ensures ParameterList(ps, info, enumNames).0 ==
              [ParameterMeta(ps[0], info, enumNames).0, ParameterMeta(ps[1], info, enumNames).0]
  {
    ParameterListAt(ps, info, enumNames, 0);
    ParameterListAt(ps, info, enumNames, 1);
  }

  /** The declared `number` return type gives a scalar `number` result. */
  lemma AddResult(d: FuncDecl)
    requires d == AddDecl()
    ensures Result(d, Roles(false, false, false), ParamTypeTexts(d.docParams), []) == (ResultMeta(None, Some(Number)), [])
  {
  }

  /** No comment after `@customfunction`: id and display name are the
      upper-cased function name. */
  lemma AddIdAndName(d: FuncDecl)
    requires d == AddDecl()
    ensures IdAndName(TagComment(d.tags, CUSTOM_FUNCTION), d.name) == ("ADD", "ADD")
  {
    assert Lower("customfunction") == "customfunction";
    assert TagComment(AddDecl().tags, CUSTOM_FUNCTION) == "";
    assert Split("", ' ') == [""];
    assert Upper("add") == "ADD";
  }

  /** No other tag: no help URL and every option false. */
  lemma AddTagsOnly(d: FuncDecl)
    requires d == AddDecl()
    ensures TagComment(d.tags, HELPURL) == ""
    ensures Flags(d.tags, Roles(false, false, false)) == OptionFlags(false, false, false, false, false)
  {
    assert Lower("customfunction") == "customfunction";
  }

  /** The whole record of `add`: id and display name `ADD`, the text of
      the JSDoc block as description, two described `number` parameters, a
      `number` result and no options. */
  lemma AddRecord(d: FuncDecl)
    requires d == AddDecl()
    ensures Record(d, []) == FunctionMeta(
              "ADD", "ADD", Some("Adds two numbers."), None,
              [ParamMeta("first", Some(Number), None, None, None, Some("First number")),
               ParamMeta("second", Some(Number), None, None, None, Some("Second number"))],
              ResultMeta(None, Some(Number)),
              None)
  {
    AddRoles(d);
    AddParameters(d);
    AddResult(d);
    AddIdAndName(d);
    AddTagsOnly(d);
    AddDescription(d);
    RecordFields(d, Roles(false, false, false), []);
  }

  lemma AddDescription(d: FuncDecl)
    requires d == AddDecl()
    ensures TextField(d.description) == Some("Adds two numbers.")
  {
    var s := d.description;
    assert forall k :: 0 <= k < |s| ==> s[k] != '\r';
  }

  /** The record of a declaration whose last parameter has the given roles,
      field by field. */
  lemma RecordFields(d: FuncDecl, roles: Roles, enumNames: seq<string>)
    requires RolesOf(d.parameters, ParamTypeTexts(d.docParams)) == roles
    ensures var typeTexts := ParamTypeTexts(d.docParams);
            var (id, name) := IdAndName(TagComment(d.tags, CUSTOM_FUNCTION), d.name);
            Record(d, enumNames) ==
              FunctionMeta(id, name, TextField(d.description), TextField(TagComment(d.tags, HELPURL)),
                           ParameterList(ParametersToParse(d.parameters, typeTexts), DocInfoOf(d), enumNames).0,
                           Result(d, roles, typeTexts, enumNames).0,
                           StripOptions(Flags(d.tags, roles)))
  {
  }

  /** A parameter of `add` reports nothing: it is typed by its own
      `number` annotation, and no `@param` tag gives a type. */
  lemma AddParameterClean(d: FuncDecl, i: nat)
    requires d == AddDecl() && i < 2
    ensures ParameterMeta(d.parameters[i], DocInfoOf(d), []).1 == []
  {
    var p := d.parameters[i];
    assert DocParamType(d.docParams, p.name).None?;
    PlainAnnotationTypes(p.declaredType.value, []);
  }

  lemma AddParameterDiagnostics(d: FuncDecl)
    requires d == AddDecl()
    ensures DeclParameters(d, []).1 == []
  {
    AddRoles(d);
    assert ParametersToParse(d.parameters, ParamTypeTexts(d.docParams)) == d.parameters;
    AddParameterClean(d, 0);
    AddParameterClean(d, 1);
    ParameterListClean(d.parameters, DocInfoOf(d), []);
  }

  /** `ADD` is an acceptable id and display name. */
  lemma AddIsValid(pos: Pos)
    ensures ValidateId("ADD", pos) == [] && ValidateName("ADD", pos, AsciiLetter) == []
  {
    assert ValidId("ADD");
    assert ValidName("ADD", AsciiLetter);
  }

  /** `add` gets no diagnostic of its own: the parameters, the result, the
      options, the id `ADD` and the display name `ADD` are all acceptable. */
  lemma AddChecks(d: FuncDecl)
    requires d == AddDecl()
    ensures Checks(d, "ADD", "ADD", [], AsciiLetter) == []
  {
    AddRoles(d);
    AddParameterDiagnostics(d);
    AddResult(d);
    AddTagsOnly(d);
    AddIsValid(d.pos);
    ChecksClean(d, "ADD", "ADD", [], AsciiLetter);
  }

  /** A file holding only `add` gives its record with an empty extra: the
      function has no diagnostic and so keeps its "good" status. */
  lemma AddFileIsClean(file: SourceFile)
    requires file.functionDecls == [AddDecl()] && file.enumNames == []
    ensures var out := ParseTree(file, AsciiLetter);
            && |out.extras| == 1
            && out.extras[0] == Extra([], "add")
            && out.functions[0] == Record(AddDecl(), [])
  {
    var d := AddDecl();
    SingleDeclaration(file, AsciiLetter, d);
    var x := ExtractionOf(d, [], AsciiLetter);
    AddIdAndName(d);
    AddChecks(d);
  }

  /* ---------------- types ---------------- */

  const P0 := Pos(0, 0)

  /** `number[][]`: a `number` matrix, not repeating. */
  lemma NumberMatrix(t: TypeNode)
    requires t == ArrayNode(ArrayNode(KeywordType(NumberKeyword, P0), P0), P0)
    ensures ParamType(Some(t), []) == (Some(Number), [])
    ensures ParamDim(Some(t)) == Matrix && !IsRepeatingParameter(Some(t))
  {
    ArraySyntaxClassification(t, []);
  }

  /** `string[][][]`: a `string` matrix that is also repeating. */
  lemma StringCube(t: TypeNode)
    requires t == ArrayNode(ArrayNode(ArrayNode(KeywordType(StringKeyword, P0), P0), P0), P0)
    ensures ParamType(Some(t), []) == (Some(String), [])
    ensures ParamDim(Some(t)) == Matrix && IsRepeatingParameter(Some(t))
  {
    ArraySyntaxClassification(t, []);
  }

  /** `Array<Array<boolean>>`: a `boolean` matrix, not repeating. */
  lemma GenericBooleanMatrix(t: TypeNode)
    requires t == RefNode("Array", [RefNode("Array", [KeywordType(BooleanKeyword, P0)], P0)], P0)
    ensures ParamType(Some(t), []) == (Some(Boolean), [])
    ensures ParamDim(Some(t)) == Matrix && !IsRepeatingParameter(Some(t))
  {
    var inner := t.typeArguments[0];
    var b := inner.typeArguments[0];
    assert FirstArguments(b) == [];
    assert FirstArguments(inner) == [b];
    assert FirstArguments(t) == [inner, b];
    assert DeepestSimple([inner, b]) == Some(1);
    GenericArrayClassification(t, []);
  }

  /** `Array<number[]>`: the generic walk follows only type references, so
      the inner `number[]` is not seen: a scalar `any`, not repeating. */
  lemma MixedArraySyntax(t: TypeNode)
    requires t == RefNode("Array", [ArrayNode(KeywordType(NumberKeyword, P0), P0)], P0)
    ensures ParamType(Some(t), []) == (Some(Any), [])
    ensures ParamDim(Some(t)) == Scalar && !IsRepeatingParameter(Some(t))
  {
    GenericArrayClassification(t, []);
  }

  /** A reference to an enum of the file is an `any`; any other name but
      `Array` is reported as an invalid type. */
  lemma EnumAndUnknownReferences()
    ensures ParamType(Some(RefNode("Color", [], P0)), ["Color"]) == (Some(Any), [])
    ensures ParamType(Some(RefNode("Date", [], P0)), ["Color"]) ==
              (Some(Any), [Diagnostic(InvalidType("Date"), P0)])
  {
  }

  /* ---------------- streaming ---------------- */

  /** `function clock(invocation: CustomFunctions.StreamingInvocation<string>): void`:
      the handler is not a parameter of the record, the result is a
      `string`, and the record is streaming. */
  lemma StreamingClock(p: Param, d: FuncDecl)
    requires p == Param("invocation",
                        Some(RefNode("CustomFunctions.StreamingInvocation", [KeywordType(StringKeyword, P0)], P0)),
                        false, false, false, P0)
    requires d == FuncDecl("clock", true, P0, [p], P0, Some(KeywordType(VoidKeyword, P0)), None, "",
                           [Tag("customfunction", "")], [])
    ensures RolesOf(d.parameters, map[]) == Roles(true, false, false)
    ensures ParametersToParse(d.parameters, map[]) == []
    ensures Result(d, Roles(true, false, false), map[], []) == (ResultMeta(None, Some(String)), [])
    ensures Flags(d.tags, Roles(true, false, false)).stream
  {
    assert "CustomFunctions.StreamingInvocation" in STREAMING_TYPE_NAMES;
  }

  /** A streaming handler whose function declares a non-void return type:
      the result keeps its defaults and the error is reported at the
      handler. */
  lemma StreamingReturnsValue(p: Param, d: FuncDecl)
    requires p == Param("invocation",
                        Some(RefNode("CustomFunctions.StreamingInvocation", [KeywordType(StringKeyword, P0)], P0)),
                        false, false, false, Pos(1, 2))
    requires d == FuncDecl("clock", true, P0, [p], P0, Some(KeywordType(NumberKeyword, P0)), None, "",
                           [Tag("customfunction", "")], [])
    ensures Result(d, Roles(true, false, false), map[], []) ==
              (ResultMeta(Some(Scalar), Some(Any)), [Diagnostic(StreamingReturnNotVoid, Pos(1, 2))])
  {
  }

  /* ---------------- ids and names ---------------- */

  /** `@customfunction addTwo Add_Two`: the id is upper-cased, the display
      name kept as written; both are acceptable. */
  lemma IdAndDisplayName()
    ensures IdAndName("addTwo Add_Two", "add") == ("ADDTWO", "Add_Two")
  {
    var words := ["addTwo", "Add_Two"];
    assert Join(words, ' ') == "addTwo Add_Two";
    IdAndNameOfWords(words, "add");
    UpperAddTwo();
  }

  lemma UpperAddTwo()
    ensures Upper("addTwo") == "ADDTWO"
  {
  }

  /** ASCII letters only, for the examples below. */
  predicate AsciiLetter(c: char) {
    ('a' <= c <= 'z') || ('A' <= c <= 'Z')
  }

  /** A display name starting with a digit gets two diagnostics. */
  lemma DigitFirstName()
    ensures ValidateName("2fast", P0, AsciiLetter) ==
              [Diagnostic(NameNotLetterFirst("2fast"), P0), Diagnostic(NameInvalidCharacters("2fast"), P0)]
  {
  }

  /** An id with a hyphen is reported once. */
  lemma HyphenatedId()
    ensures ValidateId("ADD-TWO", P0) == [Diagnostic(IdInvalidCharacters("ADD-TWO"), P0)]
  {
    assert !IsIdChar("ADD-TWO"[3]);
  }

  /* ---------------- repeats ---------------- */

  /** A bare `@customfunction` tag: id and display name are the
      upper-cased function name. */
  lemma BareTag(name: string)
    ensures IdAndName("", name) == (Upper(name), Upper(name))
  {
    assert Split("", ' ') == [""];
  }

  /** Two top-level functions `foo` and then `Foo`, each tagged with a bare
      `@customfunction`. */
  predicate FooThenFoo(file: SourceFile) {
    && |file.functionDecls| == 2
    && var a := file.functionDecls[0];
    && var b := file.functionDecls[1];
    && a.topLevel && IsCustomFunction(a) && a.name == "foo" && TagComment(a.tags, CUSTOM_FUNCTION) == ""
    && b.topLevel && IsCustomFunction(b) && b.name == "Foo" && TagComment(b.tags, CUSTOM_FUNCTION) == ""
  }

  /** Both are kept, and both get the id and display name `FOO`. */
  lemma FooRecords(file: SourceFile)
    requires FooThenFoo(file)
    ensures var out := ParseTree(file, AsciiLetter);
            && |out.functions| == 2 && |out.extras| == 2
            && out.functions[0].id == "FOO" && out.functions[1].id == "FOO"
            && out.functions[0].name == "FOO" && out.functions[1].name == "FOO"
  {
    FooRecord(file, 0);
    FooRecord(file, 1);
  }

  lemma FooRecord(file: SourceFile, i: nat)
    requires FooThenFoo(file) && i < 2
    ensures var out := ParseTree(file, AsciiLetter);
            && |out.functions| == 2 && |out.extras| == 2
            && out.functions[i].id == "FOO" && out.functions[i].name == "FOO"
  {
    var ds := file.functionDecls;
    TwoTagged(ds, ds[0], ds[1]);
    var d := ds[i];
    BareTag(d.name);
    assert Upper(d.name) == "FOO";
    var m := ParseTree(file, AsciiLetter).functions[i];
    assert m == Record(d, file.enumNames);
    assert (m.id, m.name) == IdAndName("", d.name);
  }

  /** The second one repeats the first one's id and display name; the
      first one repeats nothing. */
  lemma FooIdAndNameRepeats(file: SourceFile)
    requires FooThenFoo(file)
    ensures var out := ParseTree(file, AsciiLetter);
            && |out.extras| == 2
            && DuplicateCount(out.extras[0].errors, Ids) == 0
            && DuplicateCount(out.extras[0].errors, DisplayNames) == 0
            && DuplicateCount(out.extras[1].errors, Ids) == 1
            && DuplicateCount(out.extras[1].errors, DisplayNames) == 1
  {
    FooRecords(file);
    var out := ParseTree(file, AsciiLetter);
    assert RepeatsAgree(out, 0) && RepeatsAgree(out, 1);
    assert EarlierSameId(out.functions, 1);
    assert CaseInsensitiveEqual("FOO", "FOO");
    assert EarlierSameName(out.functions, 1);
  }

  /** The second one also repeats the first one's function name, ignoring
      case. */
  lemma FooSourceRepeat(file: SourceFile)
    requires FooThenFoo(file)
    ensures var out := ParseTree(file, AsciiLetter);
            && |out.extras| == 2
            && DuplicateCount(out.extras[1].errors, SourceNames) == 1
  {
    var ds := file.functionDecls;
    TwoTagged(ds, ds[0], ds[1]);
    assert CaseInsensitiveEqual("foo", "Foo");
    ParseTreeSourceRepeats(file, AsciiLetter, 1);
  }

  lemma TwoTagged(ds: seq<FuncDecl>, a: FuncDecl, b: FuncDecl)
    requires ds == [a, b]
    requires a.topLevel && IsCustomFunction(a) && b.topLevel && IsCustomFunction(b)
    ensures Tagged(ds) == [a, b]
    ensures Tagged(ds[..1]) == [a] && TopLevelNames(ds[..1]) == [a.name]
  {
    assert ds[..1] == [a] && ds[..1][..0] == [];
    assert ds[..|ds| - 1] == ds[..1] && ds[|ds| - 1] == b;
    assert Tagged(ds[..1]) == [a];
  }

  /* ---------------- messages ---------------- */

  /** A position is printed 1-based after the message. */
  lemma LoggedPosition()
    ensures LogError("Invalid type: Date", Some(Pos(4, 17))) == "Invalid type: Date (5,18)"
  {
  }
}

=== FILE: extract.dfy ===
/** What `visit` computes for one tagged top-level declaration that does
    not depend on the declarations before it: the metadata record and the
    diagnostics of its parameters, result, options, id and display name. */
module Extract {
  import opened Common
  import opened Text
  import opened Log
  import opened Syntax
  import opened Metadata
  import opened JsDoc
  import opened Roles
  import opened Validate
  import opened Options
  import opened Results
  import opened Parameters

  /** A text field of the record: line endings normalised, deleted when empty. */
  function TextField(s: string): (r: Option<string>)
    ensures r.Some? ==> '\r' !in r.value && r.value != ""
    ensures r.None? <==> s == ""
    ensures r.Some? ==> LineContent(r.value) == LineContent(s)
    ensures r.Some? ==> Lines(r.value) == Lines(s)
  {
    NormalizeLineEndingsKeepsContent(s);
    NormalizeLineEndingsKeepsLines(s);
    KeepNonEmpty(NormalizeLineEndings(s))
  }

  /** The roles of a declaration's last parameter. */
  function DeclRoles(d: FuncDecl): Roles {
    RolesOf(d.parameters, ParamTypeTexts(d.docParams))
  }

  /** The parameter records of a declaration and their diagnostics. */
  function DeclParameters(d: FuncDecl, enumNames: seq<string>): (seq<ParamMeta>, seq<Diagnostic>) {
    ParameterList(ParametersToParse(d.parameters, ParamTypeTexts(d.docParams)), DocInfoOf(d), enumNames)
  }

  /** The result record of a declaration and its diagnostics. */
  function DeclResult(d: FuncDecl, enumNames: seq<string>): (ResultMeta, seq<Diagnostic>) {
    Result(d, DeclRoles(d), ParamTypeTexts(d.docParams), enumNames)
  }

  /** The record of a tagged declaration, before its repeats are checked. */
  function Record(d: FuncDecl, enumNames: seq<string>): (m: FunctionMeta)
    ensures Upper(m.id) == m.id
    ensures (m.id, m.name) == IdAndName(TagComment(d.tags, CUSTOM_FUNCTION), d.name)
    ensures |m.parameters| == |d.parameters| - (if DeclRoles(d).Special() then 1 else 0)
    ensures forall i :: 0 <= i < |m.parameters| ==> m.parameters[i].name == d.parameters[i].name
    ensures m.parameters == DeclParameters(d, enumNames).0
    ensures m.result == DeclResult(d, enumNames).0
    ensures m.description == TextField(d.description)
    ensures m.helpUrl == TextField(TagComment(d.tags, HELPURL))
    ensures m.options.None? <==> !Flags(d.tags, DeclRoles(d)).AnySet()
    ensures ReadOptions(m.options) == Flags(d.tags, DeclRoles(d))
  {
    var typeTexts := ParamTypeTexts(d.docParams);
    var roles := RolesOf(d.parameters, typeTexts);
    var params := ParameterList(ParametersToParse(d.parameters, typeTexts), DocInfoOf(d), enumNames).0;
    var result := Result(d, roles, typeTexts, enumNames).0;
    var (id, name) := IdAndName(TagComment(d.tags, CUSTOM_FUNCTION), d.name);
    FunctionMeta(id, name, TextField(d.description), TextField(TagComment(d.tags, HELPURL)),
                 params, result, StripOptions(Flags(d.tags, roles)))
  }

  /** The options a consumer reads from a record: `stream` and `cancelable`
      are set by the last parameter's role or by their tags, and the other
      three by their tags alone. */
  lemma OptionsOfRecord(d: FuncDecl, enumNames: seq<string>)
    ensures var o := ReadOptions(Record(d, enumNames).options);
            var roles := DeclRoles(d);
            && (o.stream <==> roles.streaming || HasTag(d.tags, STREAMING))
            && (o.cancelable <==> roles.cancelable || HasTag(d.tags, CANCELABLE))
            && (o.volatile <==> HasTag(d.tags, VOLATILE))
            && (o.requiresAddress <==> HasTag(d.tags, REQUIRES_ADDRESS))
            && (o.requiresParameterAddresses <==> HasTag(d.tags, REQUIRES_PARAMETER_ADDRESSES))
  {
  }

  /** Extracting the declaration throws (see `ResultThrows`). */
  predicate Throws(d: FuncDecl) {
    ResultThrows(d, DeclRoles(d), ParamTypeTexts(d.docParams))
  }

  /** The diagnostics of a tagged declaration other than repeats, in the
      order the source reports them: parameters, result, options, id and
      display name. */
  function Checks(d: FuncDecl, id: string, name: string, enumNames: seq<string>, letter: char -> bool): (r: seq<Diagnostic>)
    ensures forall ns :: DuplicateCount(r, ns) == 0
    ensures forall k :: k in DeclParameters(d, enumNames).1 ==> k in r
    ensures forall k :: k in DeclResult(d, enumNames).1 ==> k in r
    ensures forall k :: k in OptionDiagnostics(d, Flags(d.tags, DeclRoles(d)), DeclRoles(d)) ==> k in r
    ensures forall k :: k in ValidateId(id, d.pos) ==> k in r
    ensures forall k :: k in ValidateName(name, d.pos, letter) ==> k in r
    ensures forall k :: k in r ==>
              || k in DeclParameters(d, enumNames).1
              || k in DeclResult(d, enumNames).1
              || k in OptionDiagnostics(d, Flags(d.tags, DeclRoles(d)), DeclRoles(d))
              || k in ValidateId(id, d.pos)
              || k in ValidateName(name, d.pos, letter)
  {
    var typeTexts := ParamTypeTexts(d.docParams);
    var roles := RolesOf(d.parameters, typeTexts);
    var paramErrors := ParameterList(ParametersToParse(d.parameters, typeTexts), DocInfoOf(d), enumNames).1;
    var resultErrors := Result(d, roles, typeTexts, enumNames).1;
    var optionErrors := OptionDiagnostics(d, Flags(d.tags, roles), roles);
    CheckedHaveNoRepeats(paramErrors, resultErrors, optionErrors, ValidateId(id, d.pos), ValidateName(name, d.pos, letter));
    paramErrors + resultErrors + optionErrors + ValidateId(id, d.pos) + ValidateName(name, d.pos, letter)
  }

  /** A declaration has no diagnostic of its own exactly when none of the
      five parts reports one. */
  lemma ChecksClean(d: FuncDecl, id: string, name: string, enumNames: seq<string>, letter: char -> bool)
    ensures Checks(d, id, name, enumNames, letter) == [] <==>
              && DeclParameters(d, enumNames).1 == []
              && DeclResult(d, enumNames).1 == []
              && OptionDiagnostics(d, Flags(d.tags, DeclRoles(d)), DeclRoles(d)) == []
              && ValidateId(id, d.pos) == []
              && ValidateName(name, d.pos, letter) == []
  {
  }

  /** The typing, usage and format diagnostics never count as repeats. */
  lemma CheckedHaveNoRepeats(a: seq<Diagnostic>, b: seq<Diagnostic>, c: seq<Diagnostic>, e: seq<Diagnostic>, f: seq<Diagnostic>)
    requires AllOfCategory(a, Typing) && AllOfCategory(b, Typing) && AllOfCategory(c, Usage)
    requires AllOfCategory(e, Format) && AllOfCategory(f, Format)
    ensures forall ns :: DuplicateCount(a + b + c + e + f, ns) == 0
  {
    forall ns
      ensures DuplicateCount(a + b + c + e + f, ns) == 0
    {
      NoStructuralNoDuplicates(a, Typing, ns);
      NoStructuralNoDuplicates(b, Typing, ns);
      NoStructuralNoDuplicates(c, Usage, ns);
      NoStructuralNoDuplicates(e, Format, ns);
      NoStructuralNoDuplicates(f, Format, ns);
      DuplicateCountAppend(a, b, ns);
      DuplicateCountAppend(a + b, c, ns);
      DuplicateCountAppend(a + b + c, e, ns);
      DuplicateCountAppend(a + b + c + e, f, ns);
    }
  }

  /** The record and the non-repeat diagnostics of one declaration. */
  datatype Extraction = Extraction(meta: FunctionMeta, checks: seq<Diagnostic>)

  /** No diagnostic of the list reports a repeat. */
  predicate NoRepeats(ds: seq<Diagnostic>) {
    DuplicateCount(ds, SourceNames) == 0 && DuplicateCount(ds, DisplayNames) == 0 && DuplicateCount(ds, Ids) == 0
  }

  /** The extraction of a declaration, for the enum names of its file and a
      letter class. */
  function ExtractionOf(d: FuncDecl, enumNames: seq<string>, letter: char -> bool): (x: Extraction)
    ensures x.meta == Record(d, enumNames)
    ensures Upper(x.meta.id) == x.meta.id
    ensures NoRepeats(x.checks)
    ensures x.checks == Checks(d, x.meta.id, x.meta.name, enumNames, letter)
  {
    var meta := Record(d, enumNames);
    Extraction(meta, Checks(d, meta.id, meta.name, enumNames, letter))
  }
}

=== FILE: jsdoc.dfy ===
/** Reading a declaration's JSDoc (generate.js `findTag`, `getTagComment`,
    `hasTag`, `containsTag`, the `getJSDocParams*` dictionaries and
    `getParamOptional`). */
module JsDoc {
  import opened Common
  import opened Text
  import opened Syntax

  const CUSTOM_FUNCTION := "customfunction"
  const HELPURL := "helpurl"
  const VOLATILE := "volatile"
  const STREAMING := "streaming"
  const CANCELABLE := "cancelable"
  const REQUIRES_ADDRESS := "requiresaddress"
  const REQUIRES_PARAMETER_ADDRESSES := "requiresparameteraddresses"

  /** `containsTag`: the tag's name, lower-cased, is `tagName`. */
  predicate ContainsTag(tag: Tag, tagName: string) {
    Lower(tag.tagName) == tagName
  }

  /** `findTag`: the first tag whose name matches case-insensitively. */
  function FindTag(tags: seq<Tag>, tagName: string): (r: Option<Tag>)
    ensures r.None? <==> forall i :: 0 <= i < |tags| ==> !ContainsTag(tags[i], tagName)
    ensures r.Some? ==> exists i :: 0 <= i < |tags| && tags[i] == r.value && ContainsTag(tags[i], tagName)
                                    && forall j :: 0 <= j < i ==> !ContainsTag(tags[j], tagName)
  {
    if |tags| == 0 then None
    else if ContainsTag(tags[0], tagName) then Some(tags[0])
    else
      var r := FindTag(tags[1..], tagName);
      assert forall i :: 1 <= i < |tags| ==> tags[i] == tags[1..][i - 1];
      r
  }

  /** `hasTag`. */
  predicate HasTag(tags: seq<Tag>, tagName: string) {
    FindTag(tags, tagName).Some?
  }

  /** `getTagComment`: the comment of the first matching tag, "" if none. */
  function TagComment(tags: seq<Tag>, tagName: string): string {
    match FindTag(tags, tagName)
    case Some(t) => t.comment
    case None => ""
  }

  /** `isCustomFunction`. */
  predicate IsCustomFunction(d: FuncDecl) {
    HasTag(d.tags, CUSTOM_FUNCTION)
  }

  /** The tag spelling does not matter: renaming a tag to any spelling with
      the same lower-case form leaves every lookup unchanged. */
  lemma TagLookupIgnoresCase(tags: seq<Tag>, i: nat, spelling: string, tagName: string)
    requires i < |tags| && Lower(spelling) == Lower(tags[i].tagName)
    ensures HasTag(tags[i := Tag(spelling, tags[i].comment)], tagName) == HasTag(tags, tagName)
    ensures TagComment(tags[i := Tag(spelling, tags[i].comment)], tagName) == TagComment(tags, tagName)
    decreases |tags|
  {
    var tags' := tags[i := Tag(spelling, tags[i].comment)];
    if i > 0 {
      assert tags'[1..] == tags[1..][i - 1 := Tag(spelling, tags[i].comment)];
      TagLookupIgnoresCase(tags[1..], i - 1, spelling, tagName);
    } else {
      assert tags'[1..] == tags[1..];
    }
  }

  /* ---------------- @param dictionaries ---------------- */

  /** A JavaScript object filled by `forEach` over the `@param` tags: the
      entry for a name is the value of the LAST tag naming it. */
  function Dictionary<V>(ps: seq<DocParam>, value: DocParam -> V): (m: map<string, V>)
    ensures forall k :: k in m <==> exists i :: 0 <= i < |ps| && ps[i].name == k
  {
    if |ps| == 0 then map[]
    else
      var m := Dictionary(ps[..|ps| - 1], value);
      assert forall i :: 0 <= i < |ps| - 1 ==> ps[..|ps| - 1][i] == ps[i];
      m[ps[|ps| - 1].name := value(ps[|ps| - 1])]
  }

  /** The dictionary entry for a name comes from the last tag naming it. */
  lemma {:induction false} DictionaryLastWins<V>(ps: seq<DocParam>, value: DocParam -> V, i: nat)
    requires i < |ps|
    requires forall j :: i < j < |ps| ==> ps[j].name != ps[i].name
    ensures ps[i].name in Dictionary(ps, value)
    ensures Dictionary(ps, value)[ps[i].name] == value(ps[i])
  {
    if i < |ps| - 1 {
      var init := ps[..|ps| - 1];
      assert init[i] == ps[i];
      assert forall j :: i < j < |init| ==> init[j] == ps[j];
      DictionaryLastWins(init, value, i);
    }
  }

  /** `getJSDocParams`: the comment without a leading `-`, trimmed. */
  function DocComment(p: DocParam): string {
    Trim(if |p.comment| > 0 && p.comment[0] == '-' then p.comment[1..] else p.comment)
  }

  /** `getJSDocParamsType`: the text inside `{...}`, or "any" without one. */
  function DocTypeText(p: DocParam): string {
    match p.typeExpression
    case Some(t) => t.text
    case None => "any"
  }

  function DocBracketed(p: DocParam): bool {
    p.isBracketed
  }

  /** The three dictionaries a declaration's `@param` tags give. */
  function ParamDescriptions(ps: seq<DocParam>): map<string, string> {
    Dictionary(ps, DocComment)
  }

  function ParamTypeTexts(ps: seq<DocParam>): map<string, string> {
    Dictionary(ps, DocTypeText)
  }

  function ParamBracketed(ps: seq<DocParam>): map<string, bool> {
    Dictionary(ps, DocBracketed)
  }

  /** A dictionary lookup that treats a missing key as `undefined`. */
  function Lookup<V>(m: map<string, V>, key: string, absent: V): V {
    if key in m then m[key] else absent
  }

  /** `ts.getJSDocType(p)`: the type of the FIRST `@param` tag that names
      the parameter and has a type. */
  function DocParamType(ps: seq<DocParam>, name: string): (r: Option<TypeNode>)
    ensures r.None? <==> forall i :: 0 <= i < |ps| ==> ps[i].name != name || ps[i].typeExpression.None?
    ensures r.Some? ==> exists i :: 0 <= i < |ps| && ps[i].name == name && ps[i].typeExpression.Some? && ps[i].typeExpression.value.node == r.value
                                    && forall j :: 0 <= j < i ==> ps[j].name != name || ps[j].typeExpression.None?
  {
    if |ps| == 0 then None
    else if ps[0].name == name && ps[0].typeExpression.Some? then Some(ps[0].typeExpression.value.node)
    else
      var r := DocParamType(ps[1..], name);
      assert forall i :: 1 <= i < |ps| ==> ps[i] == ps[1..][i - 1];
      r
  }

  /* ---------------- optionality ---------------- */

  /** `getParamOptional`: optional when the syntax says so (`?`, a default
      value or `...`); otherwise when the `@param` tag that decides the
      bracket dictionary writes the name in brackets. */
  function ParamOptional(p: Param, bracketed: map<string, bool>): (r: bool)
    ensures p.questionToken || p.initializer || p.dotDotDotToken ==> r
    ensures !(p.questionToken || p.initializer || p.dotDotDotToken) ==>
              (r <==> p.name in bracketed && bracketed[p.name])
  {
    if p.questionToken || p.initializer || p.dotDotDotToken then true
    else Lookup(bracketed, p.name, false)
  }

  /** With no syntactic marker, the bracket on the last `@param` tag for the
      parameter decides. */
  lemma ParamOptionalFromDoc(p: Param, ps: seq<DocParam>, i: nat)
    requires !(p.questionToken || p.initializer || p.dotDotDotToken)
    requires i < |ps| && ps[i].name == p.name
    requires forall j :: i < j < |ps| ==> ps[j].name != p.name
    ensures ParamOptional(p, ParamBracketed(ps)) == ps[i].isBracketed
  {
    DictionaryLastWins(ps, DocBracketed, i);
  }
}

=== FILE: log.dfy ===
/** `logError`: a diagnostic message, optionally followed by the 1-based
    `(line,column)` of the node it concerns. Positions are kept 0-based,
    as the TypeScript compiler reports them, and shifted only here. */
module Log {
  import opened Common

  /** A 0-based position in the source text. */
  datatype Pos = Pos(line: nat, character: nat)

  predicate IsDigit(c: char) { '0' <= c <= '9' }

  predicate AllDigits(s: string) {
    forall k :: 0 <= k < |s| ==> IsDigit(s[k])
  }

  function DigitChar(d: nat): (c: char)
    requires d < 10
    ensures IsDigit(c)
  {
    ('0' as int + d) as char
  }

  function DigitValue(c: char): (d: nat)
    requires IsDigit(c)
    ensures d < 10
  {
    c as int - '0' as int
  }

  /** The decimal rendering JavaScript template literals give a
      non-negative integer: no sign, no leading zeros. */
  function Decimal(n: nat): (r: string)
    ensures |r| >= 1
    ensures AllDigits(r)
    ensures |r| > 1 ==> r[0] != '0'
  {
    if n < 10 then [DigitChar(n)] else Decimal(n / 10) + [DigitChar(n % 10)]
  }

  /** The value of a string of decimal digits. */
  function DecimalValue(s: string): nat
    requires AllDigits(s)
  {
    if |s| == 0 then 0 else DecimalValue(s[..|s| - 1]) * 10 + DigitValue(s[|s| - 1])
  }

  lemma {:induction false} DecimalRoundTrip(n: nat)
    ensures DecimalValue(Decimal(n)) == n
  {
    if n >= 10 {
      var r := Decimal(n);
      assert r[..|r| - 1] == Decimal(n / 10);
      DecimalRoundTrip(n / 10);
    }
  }

  /** The suffix ` (L,C)` for a 0-based position, in 1-based numbers. */
  function PositionSuffix(p: Pos): string {
    " (" + Decimal(p.line + 1) + "," + Decimal(p.character + 1) + ")"
  }

  /** `logError(error, position)`: the message itself when there is no
      position, otherwise the message followed by its 1-based position. */
  function LogError(error: string, position: Option<Pos>): (r: string)
    ensures position.None? ==> r == error
    ensures position.Some? ==> |r| >= |error| + 6 && r[..|error|] == error
  {
    match position
    case None => error
    case Some(p) => error + PositionSuffix(p)
  }

  /** Index where the run of digits at the end of `s` starts. */
  function TrailingDigits(s: string): (k: nat)
    ensures k <= |s|
    ensures forall i :: k <= i < |s| ==> IsDigit(s[i])
    ensures k > 0 ==> !IsDigit(s[k - 1])
  {
    if |s| == 0 || !IsDigit(s[|s| - 1]) then |s| else TrailingDigits(s[..|s| - 1])
  }

  /** The run of trailing digits ends at the last non-digit. */
  lemma TrailingDigitsAfter(a: string, d: string)
    requires |a| > 0 && !IsDigit(a[|a| - 1])
    requires AllDigits(d)
    ensures TrailingDigits(a + d) == |a|
  {
    var s := a + d;
    assert s[|a| - 1] == a[|a| - 1];
    assert forall i :: |a| <= i < |s| ==> s[i] == d[i - |a|];
  }

  /** When `s` ends with `sep` followed by at least one digit, the text
      before `sep` and the value of the digits. */
  function SplitTrailingNumber(s: string, sep: string): Option<(string, nat)> {
    var k := TrailingDigits(s);
    if k == |s| || k < |sep| || s[k - |sep|..k] != sep then None
    else Some((s[..k - |sep|], DecimalValue(s[k..])))
  }

  lemma SplitTrailingNumberOf(a: string, sep: string, d: string)
    requires |sep| > 0 && !IsDigit(sep[|sep| - 1])
    requires |d| >= 1 && AllDigits(d)
    ensures SplitTrailingNumber(a + sep + d, sep) == Some((a, DecimalValue(d)))
  {
    var s := a + sep + d;
    assert (a + sep)[|a + sep| - 1] == sep[|sep| - 1];
    TrailingDigitsAfter(a + sep, d);
    var k := |a| + |sep|;
    assert s[k..] == d;
    assert s[k - |sep|..k] == sep;
    assert s[..k - |sep|] == a;
  }

  /** Reads a message back into its text and its 1-based line and
      column, if it ends with a position suffix. */
  function ParseLogged(s: string): Option<(string, nat, nat)> {
    if |s| == 0 || s[|s| - 1] != ')' then None
    else
      match SplitTrailingNumber(s[..|s| - 1], ",")
      case None => None
      case Some((rest, column)) =>
        match SplitTrailingNumber(rest, " (")
        case None => None
        case Some((text, line)) => Some((text, line, column))
  }

  /** A message followed by `" ("`, digits, `","`, digits and `")"` is
      read back into its three components. */
  lemma ParseLoggedShape(e: string, dl: string, dc: string)
    requires |dl| >= 1 && AllDigits(dl)
    requires |dc| >= 1 && AllDigits(dc)
    ensures ParseLogged(e + " (" + dl + "," + dc + ")") == Some((e, DecimalValue(dl), DecimalValue(dc)))
  {
    var s := e + " (" + dl + "," + dc + ")";
    assert s[..|s| - 1] == (e + " (" + dl) + "," + dc;
    SplitTrailingNumberOf(e + " (" + dl, ",", dc);
    SplitTrailingNumberOf(e, " (", dl);
  }

  /** The position suffix is unambiguous: whatever the message says, the
      message and the 1-based position can be read back off the logged
      string. */
  lemma {:induction false} LogErrorRoundTrip(error: string, p: Pos)
    ensures ParseLogged(LogError(error, Some(p))) == Some((error, p.line + 1, p.character + 1))
  {
    var dl := Decimal(p.line + 1);
    var dc := Decimal(p.character + 1);
    assert LogError(error, Some(p)) == error + " (" + dl + "," + dc + ")";
    ParseLoggedShape(error, dl, dc);
    DecimalRoundTrip(p.line + 1);
    DecimalRoundTrip(p.character + 1);
  }
}

=== FILE: metadata.dfy ===
/** The output of the extractor as its consumer sees it after
    `JSON.stringify`: a field that the source deletes, or sets to
    `undefined`, is `None`. Also the diagnostics attached to each
    function. */
module Metadata {
  import opened Common
  import opened Log
  import opened Syntax

  /** The host's value types (`"number"`, `"string"`, `"boolean"`, `"any"`). */
  datatype ValueType = Number | String | Boolean | Any

  datatype Dimensionality = Scalar | Matrix

  /** One entry of `parameters`. `ty` is `None` when the type resolved to
      no mapping (the source stores `undefined`). */
  datatype ParamMeta = ParamMeta(
    name: string,
    ty: Option<ValueType>,
    dimensionality: Option<Dimensionality>,
    optional: Option<bool>,
    repeating: Option<bool>,
    description: Option<string>)

  datatype ResultMeta = ResultMeta(dimensionality: Option<Dimensionality>, ty: Option<ValueType>)

  datatype OptionsMeta = OptionsMeta(
    cancelable: Option<bool>,
    requiresAddress: Option<bool>,
    stream: Option<bool>,
    volatile: Option<bool>,
    requiresParameterAddresses: Option<bool>)

  /** One `IFunction` record. `result` is never removed: the source only
      deletes it when it is falsy, and an object never is. */
  datatype FunctionMeta = FunctionMeta(
    id: string,
    name: string,
    description: Option<string>,
    helpUrl: Option<string>,
    parameters: seq<ParamMeta>,
    result: ResultMeta,
    options: Option<OptionsMeta>)

  datatype Association = Association(functionName: string, id: string)

  /** The three case-insensitive name spaces checked for repeats. */
  datatype Namespace = SourceNames | DisplayNames | Ids

  datatype AddressTag = RequiresAddressTag | RequiresParameterAddressesTag

  /** What a diagnostic reports (its wording is not modelled). */
  datatype DiagKind =
    | Duplicate(namespace: Namespace, text: string)
    | ParamTypeMismatch(docKind: SyntaxKind, declaredKind: SyntaxKind, parameter: string)
    | ReturnTypeMismatch(declaredKind: SyntaxKind, docKind: SyntaxKind, functionName: string)
    | InvalidType(typeName: string)
    | UnmappedType
    | StreamingTypeArguments
    | StreamingReturnNotVoid
    | AddressNeedsInvocation(tag: AddressTag)
    | AddressWithStreaming(tag: AddressTag)
    | IdInvalidCharacters(id: string)
    | IdTooLong
    | NameMissing
    | NameNotLetterFirst(name: string)
    | NameInvalidCharacters(name: string)
    | NameTooLong

  /** A diagnostic and the 0-based position of the node it concerns. */
  datatype Diagnostic = Diagnostic(kind: DiagKind, pos: Pos)

  /** The four families of diagnostics: repeated names, malformed ids and
      names, type problems, and misuse of the address options. */
  datatype Category = Structural | Format | Typing | Usage

  function CategoryOf(k: DiagKind): Category {
    match k
    case Duplicate(_, _) => Structural
    case IdInvalidCharacters(_) | IdTooLong | NameMissing | NameNotLetterFirst(_)
      | NameInvalidCharacters(_) | NameTooLong => Format
    case AddressNeedsInvocation(_) | AddressWithStreaming(_) => Usage
    case _ => Typing
  }

  predicate AllOfCategory(ds: seq<Diagnostic>, c: Category) {
    forall i :: 0 <= i < |ds| ==> CategoryOf(ds[i].kind) == c
  }

  /** Number of repeat diagnostics for namespace `ns` among `ds`. */
  function DuplicateCount(ds: seq<Diagnostic>, ns: Namespace): nat {
    if |ds| == 0 then 0
    else DuplicateCount(ds[..|ds| - 1], ns)
         + (if ds[|ds| - 1].kind.Duplicate? && ds[|ds| - 1].kind.namespace == ns then 1 else 0)
  }

  lemma DuplicateCountAppend(a: seq<Diagnostic>, b: seq<Diagnostic>, ns: Namespace)
    ensures DuplicateCount(a + b, ns) == DuplicateCount(a, ns) + DuplicateCount(b, ns)
    decreases |b|
  {
    if |b| > 0 {
      assert (a + b)[..|a + b| - 1] == a + b[..|b| - 1];
      DuplicateCountAppend(a, b[..|b| - 1], ns);
    } else {
      assert a + b == a;
    }
  }

  lemma NoStructuralNoDuplicates(ds: seq<Diagnostic>, c: Category, ns: Namespace)
    requires c != Structural && AllOfCategory(ds, c)
    ensures DuplicateCount(ds, ns) == 0
  {
    if |ds| > 0 {
      NoStructuralNoDuplicates(ds[..|ds| - 1], c, ns);
    }
  }

  /** The per-function extras: its diagnostics and its JavaScript name. */
  datatype Extra = Extra(errors: seq<Diagnostic>, javascriptFunctionName: string)

  /** The result bundle of one extraction. */
  datatype ParseTreeResult = ParseTreeResult(
    associate: seq<Association>,
    extras: seq<Extra>,
    functions: seq<FunctionMeta>)
}

=== FILE: options.dfy ===
/** The `options` record of a function (generate.js `getOptions`,
    `isCancelableTag`, `isStreaming`, `isVolatile`, `isAddressRequired`,
    `isRequiresParameterAddresses`) and the deletion of its false fields
    in `visit`. */
module Options {
  import opened Common
  import opened Syntax
  import opened Metadata
  import opened JsDoc
  import opened Roles

  /** The five option flags before any field is deleted. */
  datatype OptionFlags = OptionFlags(
    cancelable: bool,
    requiresAddress: bool,
    stream: bool,
    volatile: bool,
    requiresParameterAddresses: bool)
  {
    predicate AnySet() {
      cancelable || requiresAddress || stream || volatile || requiresParameterAddresses
    }

    /** One of the two address options is requested. */
    predicate WantsAddresses() {
      requiresAddress || requiresParameterAddresses
    }
  }

  /** The flags of a declaration: `cancelable` and `stream` hold when the
      last parameter has that role or the tag is present; the other three
      follow their tags alone. */
  function Flags(tags: seq<Tag>, roles: Roles): (f: OptionFlags)
    ensures f.cancelable <==> roles.cancelable || HasTag(tags, CANCELABLE)
    ensures f.stream <==> roles.streaming || HasTag(tags, STREAMING)
    ensures f.volatile <==> HasTag(tags, VOLATILE)
    ensures f.requiresAddress <==> HasTag(tags, REQUIRES_ADDRESS)
    ensures f.requiresParameterAddresses <==> HasTag(tags, REQUIRES_PARAMETER_ADDRESSES)
  {
    OptionFlags(
      roles.cancelable || HasTag(tags, CANCELABLE),
      HasTag(tags, REQUIRES_ADDRESS),
      roles.streaming || HasTag(tags, STREAMING),
      HasTag(tags, VOLATILE),
      HasTag(tags, REQUIRES_PARAMETER_ADDRESSES))
  }

  /** The tag named in an address diagnostic: `@requiresAddress` when it is
      present, `@requiresParameterAddresses` otherwise. */
  function AddressTagOf(f: OptionFlags): AddressTag {
    if f.requiresAddress then RequiresAddressTag else RequiresParameterAddressesTag
  }

  /** The diagnostics of `getOptions`. The address options need a last
      parameter with a role (reported after the parameter list) and must
      not be combined with a streaming one (reported at the function). The
      two cannot both fire, since streaming is a role. */
  function OptionDiagnostics(d: FuncDecl, f: OptionFlags, roles: Roles): (r: seq<Diagnostic>)
    ensures |r| <= 1 && AllOfCategory(r, Usage)
    ensures r == [] <==> !f.WantsAddresses() || (roles.Special() && !roles.streaming)
    ensures r == [Diagnostic(AddressNeedsInvocation(AddressTagOf(f)), d.parametersEnd)] <==>
              f.WantsAddresses() && !roles.Special()
    ensures r == [Diagnostic(AddressWithStreaming(AddressTagOf(f)), d.pos)] <==>
              f.WantsAddresses() && roles.streaming
  {
    if !f.WantsAddresses() then []
    else
      var tag := AddressTagOf(f);
      if roles.Special() then
        (if roles.streaming then [Diagnostic(AddressWithStreaming(tag), d.pos)] else [])
      else
        [Diagnostic(AddressNeedsInvocation(tag), d.parametersEnd)]
  }

  /** A boolean field that is deleted when false. */
  function KeepTrue(b: bool): (r: Option<bool>)
    ensures r != Some(false)
    ensures r.GetOr(false) == b
  {
    if b then Some(true) else None
  }

  /** The `options` record as written: removed entirely when every flag is
      false, otherwise with each false field removed. */
  function StripOptions(f: OptionFlags): (r: Option<OptionsMeta>)
    ensures ReadOptions(r) == f
    ensures r.None? <==> !f.AnySet()
    ensures r.Some? ==> && r.value.cancelable != Some(false) && r.value.requiresAddress != Some(false)
                        && r.value.stream != Some(false) && r.value.volatile != Some(false)
                        && r.value.requiresParameterAddresses != Some(false)
  {
    if !f.AnySet() then None
    else Some(OptionsMeta(KeepTrue(f.cancelable), KeepTrue(f.requiresAddress), KeepTrue(f.stream),
                          KeepTrue(f.volatile), KeepTrue(f.requiresParameterAddresses)))
  }

  /** How a consumer reads the record: a missing record or field is false. */
  function ReadOptions(o: Option<OptionsMeta>): OptionFlags {
    match o
    case None => OptionFlags(false, false, false, false, false)
    case Some(m) =>
      OptionFlags(m.cancelable.GetOr(false), m.requiresAddress.GetOr(false), m.stream.GetOr(false),
                  m.volatile.GetOr(false), m.requiresParameterAddresses.GetOr(false))
  }
}

=== FILE: parameters.dfy ===
/** The `parameters` list of a function (generate.js `getParameters`): one
    record per parameter to parse, in order, typed from the declared
    annotation or, without one, from the first `@param` tag that gives a
    type. */
module Parameters {
  import opened Common
  import opened Syntax
  import opened Metadata
  import opened Types
  import opened JsDoc
  import opened Options

  /** The JSDoc facts `getParameters` consults, gathered once per function. */
  datatype DocInfo = DocInfo(
    docParams: seq<DocParam>,
    descriptions: map<string, string>,
    bracketed: map<string, bool>)

  function DocInfoOf(d: FuncDecl): DocInfo {
    DocInfo(d.docParams, ParamDescriptions(d.docParams), ParamBracketed(d.docParams))
  }

  /** The annotation a parameter is typed from: the declared one, else the
      documented one. */
  function EffectiveType(p: Param, docParams: seq<DocParam>): (r: Option<TypeNode>)
    ensures p.declaredType.Some? ==> r == p.declaredType
    ensures p.declaredType.None? ==> r == DocParamType(docParams, p.name)
    ensures r.None? <==> p.declaredType.None? && forall i :: 0 <= i < |docParams| ==>
                                                   docParams[i].name != p.name || docParams[i].typeExpression.None?
  {
    if p.declaredType.Some? then p.declaredType else DocParamType(docParams, p.name)
  }

  /** The diagnostic for a documented type whose kind differs from the
      declared one, reported at the parameter. */
  function ParamMismatch(p: Param, docParams: seq<DocParam>): (r: seq<Diagnostic>)
    ensures |r| <= 1 && AllOfCategory(r, Typing)
    ensures r != [] <==> p.declaredType.Some? && DocParamType(docParams, p.name).Some? &&
                         Kind(DocParamType(docParams, p.name).value) != Kind(p.declaredType.value)
  {
    var doc := DocParamType(docParams, p.name);
    if doc.Some? && p.declaredType.Some? && Kind(doc.value) != Kind(p.declaredType.value) then
      [Diagnostic(ParamTypeMismatch(Kind(doc.value), Kind(p.declaredType.value), p.name), p.pos)]
    else []
  }

  /** A text field that is deleted when empty (or missing). */
  function KeepNonEmpty(s: string): (r: Option<string>)
    ensures r != Some("")
    ensures r.GetOr("") == s
  {
    if s == "" then None else Some(s)
  }

  /** A dimensionality that is deleted when scalar. */
  function KeepMatrix(dim: Dimensionality): (r: Option<Dimensionality>)
    ensures r != Some(Scalar)
    ensures r.GetOr(Scalar) == dim
  {
    if dim == Scalar then None else Some(dim)
  }

  /** One parameter's record and its diagnostics: first the kind mismatch,
      then whatever resolving the effective type reports. */
  function ParameterMeta(p: Param, info: DocInfo, enumNames: seq<string>): (r: (ParamMeta, seq<Diagnostic>))
    ensures r.0.name == p.name
    ensures |r.1| <= 2 && AllOfCategory(r.1, Typing)
    ensures r.0.dimensionality != Some(Scalar) && r.0.optional != Some(false)
            && r.0.repeating != Some(false) && r.0.description != Some("")
    ensures r.0.optional.Some? <==> ParamOptional(p, info.bracketed)
    ensures r.0.description.Some? <==> p.name in info.descriptions && info.descriptions[p.name] != ""
    ensures r.0.description.Some? ==> r.0.description.value == info.descriptions[p.name]
    ensures EffectiveType(p, info.docParams).None? ==>
              r.0.ty == Some(Any) && r.0.dimensionality.None? && r.0.repeating.None?
    ensures (r.0.repeating == Some(true)) == IsRepeatingParameter(EffectiveType(p, info.docParams))
    ensures (r.0.dimensionality == Some(Matrix)) == (ParamDim(EffectiveType(p, info.docParams)) == Matrix)
    ensures r.0.ty == ParamType(EffectiveType(p, info.docParams), enumNames).0
    ensures r.1 == ParamMismatch(p, info.docParams) + ParamType(EffectiveType(p, info.docParams), enumNames).1
  {
    var node := EffectiveType(p, info.docParams);
    var (ty, ds) := ParamType(node, enumNames);
    var meta := ParamMeta(
      p.name,
      ty,
      KeepMatrix(ParamDim(node)),
      KeepTrue(ParamOptional(p, info.bracketed)),
      KeepTrue(IsRepeatingParameter(node)),
      KeepNonEmpty(Lookup(info.descriptions, p.name, "")));
    (meta, ParamMismatch(p, info.docParams) + ds)
  }

  /** The declared annotation wins: with one present, the record does not
      depend on the types the `@param` tags give (only the diagnostics do). */
  lemma DeclaredTypeWins(p: Param, info: DocInfo, docParams: seq<DocParam>, enumNames: seq<string>)
    requires p.declaredType.Some?
    ensures ParameterMeta(p, info.(docParams := docParams), enumNames).0 == ParameterMeta(p, info, enumNames).0
  {
  }

  /** `getParameters`: the records of `ps`, in order, and their diagnostics
      concatenated in the same order. */
  function ParameterList(ps: seq<Param>, info: DocInfo, enumNames: seq<string>): (r: (seq<ParamMeta>, seq<Diagnostic>))
    ensures |r.0| == |ps|
    ensures forall i :: 0 <= i < |ps| ==> r.0[i].name == ps[i].name
    ensures AllOfCategory(r.1, Typing)
    ensures |r.1| <= 2 * |ps|
  {
    if |ps| == 0 then ([], [])
    else
      var (metas, ds) := ParameterList(ps[..|ps| - 1], info, enumNames);
      var (meta, ds') := ParameterMeta(ps[|ps| - 1], info, enumNames);
      (metas + [meta], ds + ds')
  }

  /** The i-th record of the list is the record of the i-th parameter. */
  lemma {:induction false} ParameterListAt(ps: seq<Param>, info: DocInfo, enumNames: seq<string>, i: nat)
    requires i < |ps|
    ensures ParameterList(ps, info, enumNames).0[i] == ParameterMeta(ps[i], info, enumNames).0
  {
    if i < |ps| - 1 {
      ParameterListAt(ps[..|ps| - 1], info, enumNames, i);
    }
  }
  /** The list's diagnostics grow by the last parameter's. */
  lemma ParameterListSnoc(ps: seq<Param>, info: DocInfo, enumNames: seq<string>)
    requires |ps| > 0
    ensures ParameterList(ps, info, enumNames).1
            == ParameterList(ps[..|ps| - 1], info, enumNames).1 + ParameterMeta(ps[|ps| - 1], info, enumNames).1
  {
  }

  /** The i-th parameter's diagnostics are all reported by the list. */
  lemma {:induction false} ParameterListReports(ps: seq<Param>, info: DocInfo, enumNames: seq<string>, i: nat)
    requires i < |ps|
    ensures forall k :: k in ParameterMeta(ps[i], info, enumNames).1 ==> k in ParameterList(ps, info, enumNames).1
  {
    ParameterListSnoc(ps, info, enumNames);
    if i < |ps| - 1 {
      ParameterListReports(ps[..|ps| - 1], info, enumNames, i);
      assert ps[..|ps| - 1][i] == ps[i];
    }
  }

  /** The list reports nothing that no parameter reports. */
  lemma {:induction false} ParameterListReportsOnly(ps: seq<Param>, info: DocInfo, enumNames: seq<string>)
    ensures forall k :: k in ParameterList(ps, info, enumNames).1 ==>
              exists i :: 0 <= i < |ps| && k in ParameterMeta(ps[i], info, enumNames).1
    decreases |ps|
  {
    if |ps| > 0 {
      var init := ps[..|ps| - 1];
      ParameterListReportsOnly(init, info, enumNames);
      ParameterListSnoc(ps, info, enumNames);
      forall k | k in ParameterList(ps, info, enumNames).1
        ensures exists i :: 0 <= i < |ps| && k in ParameterMeta(ps[i], info, enumNames).1
      {
        if k in ParameterList(init, info, enumNames).1 {
          var i :| 0 <= i < |init| && k in ParameterMeta(init[i], info, enumNames).1;
          assert init[i] == ps[i];
        } else {
          assert k in ParameterMeta(ps[|ps| - 1], info, enumNames).1;
        }
      }
    }
  }

  /** The list reports nothing exactly when no parameter does. */
  lemma {:induction false} ParameterListClean(ps: seq<Param>, info: DocInfo, enumNames: seq<string>)
    ensures ParameterList(ps, info, enumNames).1 == [] <==>
              forall i :: 0 <= i < |ps| ==> ParameterMeta(ps[i], info, enumNames).1 == []
    decreases |ps|
  {
    if |ps| > 0 {
      var init := ps[..|ps| - 1];
      ParameterListClean(init, info, enumNames);
      ParameterListSnoc(ps, info, enumNames);
      var front := ParameterList(init, info, enumNames).1;
      var last := ParameterMeta(ps[|ps| - 1], info, enumNames).1;
      assert front + last == [] <==> front == [] && last == [];
      assert forall i :: 0 <= i < |init| ==> init[i] == ps[i];
    }
  }
}

=== FILE: results.dfy ===
/** The `result` record of a function (generate.js `getResults`): its value
    type and dimensionality, taken from the streaming handler's type
    argument, from the declared return type (looking inside `Promise<T>`)
    or from a `@returns {T}` tag, which overrides both. */
module Results {
  import opened Common
  import opened Log
  import opened Syntax
  import opened Metadata
  import opened Types
  import opened JsDoc
  import opened Roles

  /** The record the two streaming error paths return as it stands: the
      default scalar `any`, with neither field deleted. */
  const DefaultResult := ResultMeta(Some(Scalar), Some(Any))

  /** How a consumer reads a result record: a missing type is `any`, a
      missing dimensionality is scalar. */
  function ReadType(r: ResultMeta): ValueType {
    r.ty.GetOr(Any)
  }

  function ReadDimensionality(r: ResultMeta): Dimensionality {
    r.dimensionality.GetOr(Scalar)
  }

  /** The record after the default fields are deleted: a scalar
      dimensionality and an `any` (or unmapped) type are not written. */
  function StripResult(ty: Option<ValueType>, dim: Dimensionality): (r: ResultMeta)
    ensures r.ty != Some(Any) && r.dimensionality != Some(Scalar)
    ensures ReadType(r) == ty.GetOr(Any) && ReadDimensionality(r) == dim
  {
    ResultMeta(if dim == Scalar then None else Some(dim), if ty == Some(Any) then None else ty)
  }

  /** `Promise<T>` with exactly one argument stands for `T`. */
  function PromiseInner(t: TypeNode): (r: TypeNode)
    ensures r == t || (t.RefNode? && t.typeName == "Promise" && t.typeArguments == [r])
    ensures t.RefNode? && t.typeName == "Promise" && |t.typeArguments| == 1 ==> r == t.typeArguments[0]
  {
    if t.RefNode? && t.typeName == "Promise" && |t.typeArguments| == 1 then t.typeArguments[0] else t
  }

  /** Value type, dimensionality and diagnostics of a return type. */
  function ResolveReturn(t: TypeNode, enumNames: seq<string>): (r: (Option<ValueType>, Dimensionality, seq<Diagnostic>))
    ensures |r.2| <= 1 && AllOfCategory(r.2, Typing)
  {
    var inner := PromiseInner(t);
    var (ty, ds) := ParamType(Some(inner), enumNames);
    (ty, ParamDim(Some(inner)), ds)
  }

  /** The state of `getResults` before the `@returns` tag is consulted:
      either it has already returned, or it holds a type and a
      dimensionality still to be combined with the tag. */
  datatype Partial =
    | Done(result: ResultMeta, errors: seq<Diagnostic>)
    | Resolved(ty: Option<ValueType>, dim: Dimensionality, errors: seq<Diagnostic>)

  /** The streaming function's early returns, with the diagnostic each one
      reports at the last parameter; `None` when the handler's type
      argument is used. */
  function StreamingEarlyExit(d: FuncDecl, typeTexts: map<string, string>): (r: Option<Partial>)
    requires |d.parameters| > 0
    ensures r.Some? ==> r.value.Done?
    ensures var last := d.parameters[|d.parameters| - 1];
            && (r.Some? && r.value.errors == [] <==> last.declaredType.None?)
            && (r == Some(Done(DefaultResult, [Diagnostic(StreamingTypeArguments, last.pos)])) <==>
                  last.declaredType.Some? && |TypeArguments(last.declaredType.value)| != 1)
            && (r == Some(Done(DefaultResult, [Diagnostic(StreamingReturnNotVoid, last.pos)])) <==>
                  && last.declaredType.Some? && |TypeArguments(last.declaredType.value)| == 1
                  && d.returnType.Some? && Kind(d.returnType.value) != KeywordKind(VoidKeyword))
            && (r.None? <==>
                  && last.declaredType.Some? && |TypeArguments(last.declaredType.value)| == 1
                  && (d.returnType.None? || Kind(d.returnType.value) == KeywordKind(VoidKeyword)))
  {
    var last := d.parameters[|d.parameters| - 1];
    match last.declaredType
    case None => Some(Done(ResultMeta(None, StreamingDocType(DocRoleKey(last, typeTexts))), []))
    case Some(t) =>
      if |TypeArguments(t)| != 1 then
        Some(Done(DefaultResult, [Diagnostic(StreamingTypeArguments, last.pos)]))
      else if d.returnType.Some? && Kind(d.returnType.value) != KeywordKind(VoidKeyword) then
        Some(Done(DefaultResult, [Diagnostic(StreamingReturnNotVoid, last.pos)]))
      else None
  }

  /** Everything before the `@returns` tag. */
  function PartialResult(d: FuncDecl, roles: Roles, typeTexts: map<string, string>, enumNames: seq<string>): Partial
    requires roles.streaming ==> |d.parameters| > 0
  {
    if roles.streaming then
      match StreamingEarlyExit(d, typeTexts)
      case Some(p) => p
      case None =>
        var arg := TypeArguments(d.parameters[|d.parameters| - 1].declaredType.value)[0];
        var (ty, ds) := ParamType(Some(arg), enumNames);
        Resolved(ty, ParamDim(Some(arg)), ds)
    else
      match d.returnType
      case None => Resolved(Some(Any), Scalar, [])
      case Some(t) =>
        var (ty, dim, ds) := ResolveReturn(t, enumNames);
        Resolved(ty, dim, ds)
  }

  /** The diagnostic for a `@returns` type whose kind differs from the
      declared return type's, reported at the tag's type. */
  function ReturnMismatch(d: FuncDecl): (r: seq<Diagnostic>)
    ensures |r| <= 1 && AllOfCategory(r, Typing)
    ensures r != [] <==> d.returnType.Some? && d.docReturnType.Some? && Kind(d.returnType.value) != Kind(d.docReturnType.value)
  {
    if d.returnType.Some? && d.docReturnType.Some? && Kind(d.returnType.value) != Kind(d.docReturnType.value) then
      [Diagnostic(ReturnTypeMismatch(Kind(d.returnType.value), Kind(d.docReturnType.value), d.name), d.docReturnType.value.pos)]
    else []
  }

  /** One of the streaming function's early returns is taken. */
  predicate EarlyExit(d: FuncDecl, roles: Roles, typeTexts: map<string, string>) {
    roles.streaming && |d.parameters| > 0 && StreamingEarlyExit(d, typeTexts).Some?
  }

  /** The annotation `getResults` resolves before it consults `@returns`:
      the streaming handler's type argument, else the declared return type
      (a `Promise<T>` standing for `T`), else none. */
  function BaseAnnotation(d: FuncDecl, roles: Roles): Option<TypeNode> {
    if roles.streaming then
      if |d.parameters| > 0 && d.parameters[|d.parameters| - 1].declaredType.Some?
         && |TypeArguments(d.parameters[|d.parameters| - 1].declaredType.value)| > 0
      then Some(TypeArguments(d.parameters[|d.parameters| - 1].declaredType.value)[0])
      else None
    else if d.returnType.Some? then Some(PromiseInner(d.returnType.value))
    else None
  }

  /** The annotation a record is typed from once the early returns are
      passed: the `@returns` type (a `Promise<T>` tag standing for `T`),
      which overrides the base annotation. */
  function ResultAnnotation(d: FuncDecl, roles: Roles): Option<TypeNode> {
    if d.docReturnType.Some? then Some(PromiseInner(d.docReturnType.value))
    else BaseAnnotation(d, roles)
  }

  /** Reporting a return-type mismatch reads the function's name, which a
      declaration without one (`export default function`) does not have:
      `getResults` throws there instead of returning. */
  predicate ResultThrows(d: FuncDecl, roles: Roles, typeTexts: map<string, string>) {
    d.name == "" && !EarlyExit(d, roles, typeTexts) && ReturnMismatch(d) != []
  }

  /** `getResults`: the result record and the diagnostics it reports. With
      no return type anywhere the record is empty (scalar `any`). Only the
      two streaming errors leave the default record unstripped; every other
      path deletes a scalar dimensionality and an `any` type, except that a
      handler typed only in the documentation reports its value type as
      written, `any` included. */
  function Result(d: FuncDecl, roles: Roles, typeTexts: map<string, string>, enumNames: seq<string>): (r: (ResultMeta, seq<Diagnostic>))
    requires roles.streaming ==> |d.parameters| > 0
    ensures AllOfCategory(r.1, Typing)
    ensures |r.1| <= 3
    ensures !roles.streaming && d.returnType.None? && d.docReturnType.None? ==> r == (ResultMeta(None, None), [])
    ensures r.0 == DefaultResult <==>
              roles.streaming && StreamingEarlyExit(d, typeTexts).Some? && StreamingEarlyExit(d, typeTexts).value.errors != []
    ensures r.0 == DefaultResult || (r.0.dimensionality != Some(Scalar) && r.0.ty != Some(Any)) ||
            (EarlyExit(d, roles, typeTexts) && r.1 == [] && r.0.dimensionality.None?)
    ensures !EarlyExit(d, roles, typeTexts) ==>
              && ReadType(r.0) == ParamType(ResultAnnotation(d, roles), enumNames).0.GetOr(Any)
              && ReadDimensionality(r.0) == ParamDim(ResultAnnotation(d, roles))
              && (forall k :: k in ParamType(ResultAnnotation(d, roles), enumNames).1 ==> k in r.1)
              && (forall k :: k in ReturnMismatch(d) ==> k in r.1)
              && (forall k :: k in ParamType(BaseAnnotation(d, roles), enumNames).1 ==> k in r.1)
    ensures !EarlyExit(d, roles, typeTexts) ==>
              r.1 == ParamType(BaseAnnotation(d, roles), enumNames).1 + ReturnMismatch(d) +
                     (if d.docReturnType.Some? then ParamType(ResultAnnotation(d, roles), enumNames).1 else [])
    ensures EarlyExit(d, roles, typeTexts) ==> r.1 == StreamingEarlyExit(d, typeTexts).value.errors
  {
    match PartialResult(d, roles, typeTexts, enumNames)
    case Done(result, errors) => (result, errors)
    case Resolved(ty, dim, errors) =>
      match d.docReturnType
      case None => (StripResult(ty, dim), errors)
      case Some(dt) =>
        var (ty', dim', ds) := ResolveReturn(dt, enumNames);
        (StripResult(ty', dim'), errors + ReturnMismatch(d) + ds)
  }

  /** A handler typed only in the documentation takes its value type from
      the streaming table, reports nothing, and never consults `@returns`. */
  lemma DocumentedHandlerResult(d: FuncDecl, typeTexts: map<string, string>, enumNames: seq<string>)
    requires |d.parameters| > 0
    requires d.parameters[|d.parameters| - 1].declaredType.None?
    requires IsStreamingParameter(d.parameters[|d.parameters| - 1], typeTexts)
    ensures var roles := RolesOf(d.parameters, typeTexts);
            var r := Result(d, roles, typeTexts, enumNames);
            && r.1 == []
            && r.0.dimensionality.None?
            && r.0.ty == StreamingDocType(DocRoleKey(d.parameters[|d.parameters| - 1], typeTexts))
            && r.0.ty.Some?
  {
  }

  /** A `@returns` type overrides the declared one: outside the early
      returns, two declarations that differ only in their declared return
      type get the same record. */
  lemma DocReturnOverrides(d: FuncDecl, declared: Option<TypeNode>, roles: Roles,
                           typeTexts: map<string, string>, enumNames: seq<string>)
    requires !roles.streaming && d.docReturnType.Some?
    ensures Result(d.(returnType := declared), roles, typeTexts, enumNames).0 == Result(d, roles, typeTexts, enumNames).0
  {
  }

  /** `Promise<T>` is unwrapped once: a declared `Promise<T>` return gives
      the same record as a declared `T`, when `T` is not itself a promise. */
  lemma PromiseIsTransparent(d: FuncDecl, inner: TypeNode, pos: Pos, roles: Roles,
                             typeTexts: map<string, string>, enumNames: seq<string>)
    requires !roles.streaming && d.docReturnType.None?
    requires PromiseInner(inner) == inner
    ensures Result(d.(returnType := Some(RefNode("Promise", [inner], pos))), roles, typeTexts, enumNames).0
            == Result(d.(returnType := Some(inner)), roles, typeTexts, enumNames).0
  {
  }
}

=== FILE: roles.dfy ===
/** Classification of a declaration's last parameter (generate.js
    `hasStreamingInvocationParameter`, `hasCancelableInvocationParameter`,
    `hasInvocationParameter` and the choice of `parametersToParse`). Each
    role holds when EITHER the `@param` type text, lower-cased, is in the
    role's table OR the declared annotation is a type reference whose name
    is, exactly, one of the role's names. */
module Roles {
  import opened Common
  import opened Text
  import opened Syntax
  import opened Metadata
  import opened JsDoc

  /** `TYPE_CUSTOM_FUNCTIONS_STREAMING`: lower-cased handler spellings and
      the value type each one pushes. */
  function StreamingDocType(key: string): Option<ValueType> {
    if key == "customfunctions.streaminghandler<string>" then Some(String)
    else if key == "customfunctions.streaminghandler<number>" then Some(Number)
    else if key == "customfunctions.streaminghandler<boolean>" then Some(Boolean)
    else if key == "customfunctions.streaminghandler<any>" then Some(Any)
    else if key == "customfunctions.streaminginvocation<string>" then Some(String)
    else if key == "customfunctions.streaminginvocation<number>" then Some(Number)
    else if key == "customfunctions.streaminginvocation<boolean>" then Some(Boolean)
    else if key == "customfunctions.streaminginvocation<any>" then Some(Any)
    else None
  }

  /** `TYPE_CUSTOM_FUNCTION_CANCELABLE`. */
  predicate IsCancelableDocType(key: string) {
    key == "customfunctions.cancelablehandler" || key == "customfunctions.cancelableinvocation"
  }

  /** `TYPE_CUSTOM_FUNCTION_INVOCATION`. */
  const INVOCATION_DOC_TYPE := "customfunctions.invocation"

  const STREAMING_TYPE_NAMES: set<string> :=
    {"CustomFunctions.StreamingInvocation", "CustomFunctions.StreamingHandler", "IStreamingCustomFunctionHandler"}

  const CANCELABLE_TYPE_NAMES: set<string> :=
    {"CustomFunctions.CancelableHandler", "CustomFunctions.CancelableInvocation"}

  const INVOCATION_TYPE_NAME := "CustomFunctions.Invocation"

  /** The lower-cased `@param` type text of a parameter; "" when it has no
      name or no `@param` tag (the source then skips the table lookup). */
  function DocRoleKey(p: Param, typeTexts: map<string, string>): string {
    if p.name == "" then "" else Lower(Lookup(typeTexts, p.name, ""))
  }

  /** The declared type-reference name, compared case-sensitively. */
  predicate DeclaredRefIn(p: Param, names: set<string>) {
    p.declaredType.Some? && p.declaredType.value.RefNode? && p.declaredType.value.typeName in names
  }

  predicate IsStreamingParameter(p: Param, typeTexts: map<string, string>) {
    StreamingDocType(DocRoleKey(p, typeTexts)).Some? || DeclaredRefIn(p, STREAMING_TYPE_NAMES)
  }

  predicate IsCancelableParameter(p: Param, typeTexts: map<string, string>) {
    IsCancelableDocType(DocRoleKey(p, typeTexts)) || DeclaredRefIn(p, CANCELABLE_TYPE_NAMES)
  }

  predicate IsInvocationParameter(p: Param, typeTexts: map<string, string>) {
    DocRoleKey(p, typeTexts) == INVOCATION_DOC_TYPE || DeclaredRefIn(p, {INVOCATION_TYPE_NAME})
  }

  /** The three roles of a declaration's last parameter. */
  datatype Roles = Roles(streaming: bool, cancelable: bool, invocation: bool) {
    predicate Special() {
      streaming || cancelable || invocation
    }
  }

  /** The roles of the last parameter; none when there are no parameters. */
  function RolesOf(params: seq<Param>, typeTexts: map<string, string>): (r: Roles)
    ensures r.Special() ==> |params| > 0
  {
    if |params| == 0 then Roles(false, false, false)
    else
      var last := params[|params| - 1];
      Roles(IsStreamingParameter(last, typeTexts),
            IsCancelableParameter(last, typeTexts),
            IsInvocationParameter(last, typeTexts))
  }

  /** `parametersToParse`: the declared parameters, without the last one
      exactly when it has a role. */
  function ParametersToParse(params: seq<Param>, typeTexts: map<string, string>): (r: seq<Param>)
    ensures r <= params
    ensures |r| == |params| - 1 <==> RolesOf(params, typeTexts).Special()
    ensures !RolesOf(params, typeTexts).Special() ==> r == params
  {
    if RolesOf(params, typeTexts).Special() then params[..|params| - 1] else params
  }

  /** The documentation check ignores case: two `@param` type texts with
      the same lower-case form give the same roles. */
  lemma DocRolesIgnoreCase(params: seq<Param>, typeTexts: map<string, string>, text: string)
    requires |params| > 0
    requires var name := params[|params| - 1].name; name in typeTexts && Lower(text) == Lower(typeTexts[name])
    ensures RolesOf(params, typeTexts[params[|params| - 1].name := text]) == RolesOf(params, typeTexts)
  {
  }

  /** The declared-name check does not ignore case: a last parameter whose
      declared reference is not spelled exactly as one of the role names
      (a spelling in another case included), and whose `@param` type text
      names no role, has no role and stays in the parameter list. */
  lemma DeclaredNamesAreCaseSensitive(p: Param, typeTexts: map<string, string>)
    requires p.declaredType.Some? && p.declaredType.value.RefNode?
    requires p.declaredType.value.typeName !in STREAMING_TYPE_NAMES + CANCELABLE_TYPE_NAMES + {INVOCATION_TYPE_NAME}
    requires var key := DocRoleKey(p, typeTexts);
             StreamingDocType(key).None? && !IsCancelableDocType(key) && key != INVOCATION_DOC_TYPE
    ensures !RolesOf([p], typeTexts).Special()
    ensures ParametersToParse([p], typeTexts) == [p]
  {
  }
}

=== FILE: syntax.dfy ===
/** The input of the extractor: the part of a parsed TypeScript source file
    it inspects. The compiler's parse tree and JSDoc APIs are replaced by
    these values; every node that can be reported on carries its 0-based
    start position. */
module Syntax {
  import opened Common
  import opened Log

  /** The keyword type nodes the extractor distinguishes. */
  datatype Keyword =
    | NumberKeyword
    | StringKeyword
    | BooleanKeyword
    | AnyKeyword
    | VoidKeyword
    | ObjectKeyword
    | EnumKeyword

  /** A node's syntax kind, as compared by `kind !== kind` in the source.
      `OtherKind` stands for every kind the extractor never names
      (literal types, function types, parenthesised types, `undefined`,
      ...), each with its own code. */
  datatype SyntaxKind =
    | KeywordKind(keyword: Keyword)
    | UnionType
    | TupleType
    | ArrayType
    | TypeReference
    | OtherKind(code: nat)

  /** A type annotation. `RefNode` is a type reference such as
      `Array<number>` or `CustomFunctions.StreamingInvocation<string>`:
      `typeName` is its (possibly qualified) name as written and
      `typeArguments` its `<...>` list, empty when there is none. */
  datatype TypeNode =
    | KeywordType(keyword: Keyword, pos: Pos)
    | UnionNode(pos: Pos)
    | TupleNode(pos: Pos)
    | ArrayNode(elementType: TypeNode, pos: Pos)
    | RefNode(typeName: string, typeArguments: seq<TypeNode>, pos: Pos)
    | OtherNode(code: nat, pos: Pos)

  function Kind(t: TypeNode): SyntaxKind {
    match t
    case KeywordType(k, _) => KeywordKind(k)
    case UnionNode(_) => UnionType
    case TupleNode(_) => TupleType
    case ArrayNode(_, _) => ArrayType
    case RefNode(_, _, _) => TypeReference
    case OtherNode(c, _) => OtherKind(c)
  }

  /** The type arguments of a node; only type references have any. */
  function TypeArguments(t: TypeNode): seq<TypeNode> {
    if t.RefNode? then t.typeArguments else []
  }

  /** A declared parameter: its name (empty for a destructuring pattern),
      its type annotation, and the three syntactic optionality markers
      `?`, `= default` and `...`. */
  datatype Param = Param(
    name: string,
    declaredType: Option<TypeNode>,
    questionToken: bool,
    initializer: bool,
    dotDotDotToken: bool,
    pos: Pos)

  /** The `{...}` of a `@param` tag: the text between the braces and the
      type node it parses to. */
  datatype DocType = DocType(text: string, node: TypeNode)

  /** One `@param` tag: the parameter it names, its type expression, whether
      the name is written in brackets (`[name]`) and its comment text. */
  datatype DocParam = DocParam(
    name: string,
    typeExpression: Option<DocType>,
    isBracketed: bool,
    comment: string)

  /** Any other JSDoc tag, `@name comment`; an absent comment is "". */
  datatype Tag = Tag(tagName: string, comment: string)

  /** A function declaration, as met in a depth-first walk of the file.
      `topLevel` says whether its parent is the source file itself;
      `parametersEnd` is the position just after the parameter list;
      `docReturnType` is the type of a `@returns {T}` tag; `description`
      is the free text of the first JSDoc block ("" when there is none). */
  datatype FuncDecl = FuncDecl(
    name: string,
    topLevel: bool,
    pos: Pos,
    parameters: seq<Param>,
    parametersEnd: Pos,
    returnType: Option<TypeNode>,
    docReturnType: Option<TypeNode>,
    description: string,
    tags: seq<Tag>,
    docParams: seq<DocParam>)

  /** A parsed file: the names of all enum declarations anywhere in it, and
      all function declarations in depth-first pre-order. */
  datatype SourceFile = SourceFile(enumNames: seq<string>, functionDecls: seq<FuncDecl>)
}

=== FILE: text.dfy ===
/** Character and string helpers with the JavaScript semantics the
    extractor relies on: ASCII case folding, `String.prototype.split` on
    one character, `trim`, the line-ending rewrite and UTF-16 length. */
module Text {

  /* ---------------- ASCII case folding ---------------- */

  predicate IsAsciiUpper(c: char) { 'A' <= c <= 'Z' }

  predicate IsAsciiLower(c: char) { 'a' <= c <= 'z' }

  function LowerChar(c: char): (r: char)
    ensures !IsAsciiUpper(r)
  {
    if IsAsciiUpper(c) then (c as int + 32) as char else c
  }

  function UpperChar(c: char): (r: char)
    ensures !IsAsciiLower(r)
  {
    if IsAsciiLower(c) then (c as int - 32) as char else c
  }

  /** `toLowerCase` / `toLocaleLowerCase`, restricted to ASCII letters. */
  function Lower(s: string): (r: string)
    ensures |r| == |s|
    ensures forall i :: 0 <= i < |s| ==> r[i] == LowerChar(s[i])
  {
    seq(|s|, i requires 0 <= i < |s| => LowerChar(s[i]))
  }

  /** `toLocaleUpperCase`, restricted to ASCII letters. */
  function Upper(s: string): (r: string)
    ensures |r| == |s|
    ensures forall i :: 0 <= i < |s| ==> r[i] == UpperChar(s[i])
  {
    seq(|s|, i requires 0 <= i < |s| => UpperChar(s[i]))
  }

  /** Case-insensitive equality of two strings (`localeCompare` with
      accent sensitivity returning 0), on ASCII folding. */
  predicate CaseInsensitiveEqual(a: string, b: string) {
    Lower(a) == Lower(b)
  }

  lemma FoldCharsAgree(x: char, y: char)
    ensures LowerChar(x) == LowerChar(y) <==> UpperChar(x) == UpperChar(y)
  {
  }

  /** Folding to lower case and folding to upper case identify the same
      strings: two strings are case-insensitively equal exactly when their
      upper-cased forms coincide. */
  lemma {:induction false} CaseInsensitiveIffSameUpper(a: string, b: string)
    ensures CaseInsensitiveEqual(a, b) <==> Upper(a) == Upper(b)
  {
    if CaseInsensitiveEqual(a, b) {
      assert |a| == |b|;
      forall i | 0 <= i < |a|
        ensures Upper(a)[i] == Upper(b)[i]
      {
        assert Lower(a)[i] == Lower(b)[i];
        FoldCharsAgree(a[i], b[i]);
      }
    }
    if Upper(a) == Upper(b) {
      assert |a| == |b|;
      forall i | 0 <= i < |a|
        ensures Lower(a)[i] == Lower(b)[i]
      {
        assert Upper(a)[i] == Upper(b)[i];
        FoldCharsAgree(a[i], b[i]);
      }
    }
  }

  /** Upper-casing is idempotent, so an id normalised once stays put. */
  lemma UpperIdempotent(s: string)
    ensures Upper(Upper(s)) == Upper(s)
  {
    assert forall i :: 0 <= i < |s| ==> UpperChar(UpperChar(s[i])) == UpperChar(s[i]);
  }

  /* ---------------- split / join on one character ---------------- */

  /** `s.split(sep)` for a one-character separator: every occurrence of
      `sep` ends a part, so `""` gives `[""]` and adjacent separators give
      empty parts. */
  function Split(s: string, sep: char): (parts: seq<string>)
    ensures |parts| >= 1
    ensures forall k :: 0 <= k < |parts| ==> sep !in parts[k]
  {
    if |s| == 0 then [""]
    else
      var rest := Split(s[1..], sep);
      if s[0] == sep then [""] + rest
      else [[s[0]] + rest[0]] + rest[1..]
  }

  /** `parts.join(sep)`. */
  function Join(parts: seq<string>, sep: char): string
    requires |parts| >= 1
  {
    if |parts| == 1 then parts[0] else parts[0] + [sep] + Join(parts[1..], sep)
  }

  /** Splitting loses nothing: joining the parts back gives the input. */
  lemma {:induction false} JoinSplit(s: string, sep: char)
    ensures Join(Split(s, sep), sep) == s
  {
    if |s| > 0 {
      var rest := Split(s[1..], sep);
      JoinSplit(s[1..], sep);
      if s[0] == sep {
        assert Split(s, sep)[1..] == rest;
        assert s == [sep] + s[1..];
      } else {
        var parts := Split(s, sep);
        if |rest| == 1 {
          assert parts == [[s[0]] + rest[0]];
        } else {
          assert parts[1..] == rest[1..];
          assert Join(rest, sep) == rest[0] + [sep] + Join(rest[1..], sep);
        }
      }
    }
  }

  lemma {:induction false} SplitAfterPart(a: string, b: string, sep: char)
    requires sep !in a
    ensures Split(a + [sep] + b, sep) == [a] + Split(b, sep)
    ensures Split(a, sep) == [a]
    decreases |a|
  {
    if |a| > 0 {
      SplitAfterPart(a[1..], b, sep);
      assert (a + [sep] + b)[1..] == a[1..] + [sep] + b;
      assert [a[0]] + a[1..] == a;
    } else {
      assert (a + [sep] + b)[1..] == b;
    }
  }

  /** Joining parts that do not contain the separator and splitting again
      gives the parts back. */
  lemma {:induction false} SplitJoin(parts: seq<string>, sep: char)
    requires |parts| >= 1
    requires forall k :: 0 <= k < |parts| ==> sep !in parts[k]
    ensures Split(Join(parts, sep), sep) == parts
  {
    if |parts| == 1 {
      SplitAfterPart(parts[0], "", sep);
    } else {
      SplitJoin(parts[1..], sep);
      SplitAfterPart(parts[0], Join(parts[1..], sep), sep);
      assert [parts[0]] + parts[1..] == parts;
    }
  }

  /* ---------------- trim ---------------- */

  /** ECMAScript WhiteSpace and LineTerminator code points, the set
      `String.prototype.trim` removes. */
  predicate IsJsWhitespace(c: char) {
    || c == '\t' || c == '\n' || c == '\U{000B}' || c == '\U{000C}' || c == '\r' || c == ' '
    || c == '\U{00A0}' || c == '\U{1680}' || ('\U{2000}' <= c <= '\U{200A}')
    || c == '\U{2028}' || c == '\U{2029}' || c == '\U{202F}' || c == '\U{205F}'
    || c == '\U{3000}' || c == '\U{FEFF}'
  }

  /** Number of leading whitespace characters. */
  function LeadingWhitespace(s: string): (i: nat)
    ensures i <= |s|
    ensures forall k :: 0 <= k < i ==> IsJsWhitespace(s[k])
    ensures i < |s| ==> !IsJsWhitespace(s[i])
  {
    if |s| == 0 || !IsJsWhitespace(s[0]) then 0 else 1 + LeadingWhitespace(s[1..])
  }

  /** Length of `s` once its trailing whitespace is removed. */
  function WithoutTrailingWhitespace(s: string): (j: nat)
    ensures j <= |s|
    ensures forall k :: j <= k < |s| ==> IsJsWhitespace(s[k])
    ensures j > 0 ==> !IsJsWhitespace(s[j - 1])
  {
    if |s| == 0 || !IsJsWhitespace(s[|s| - 1]) then |s| else WithoutTrailingWhitespace(s[..|s| - 1])
  }

  /** `s.trim()`: the infix of `s` left after removing whitespace at both
      ends; only whitespace is removed, and none remains at either end. */
  function Trim(s: string): (r: string)
    ensures |r| > 0 ==> !IsJsWhitespace(r[0]) && !IsJsWhitespace(r[|r| - 1])
    ensures exists i, j :: 0 <= i <= j <= |s| && r == s[i..j]
                           && (forall k :: 0 <= k < i ==> IsJsWhitespace(s[k]))
                           && (forall k :: j <= k < |s| ==> IsJsWhitespace(s[k]))
  {
    var i := LeadingWhitespace(s);
    var t := s[i..];
    var j := WithoutTrailingWhitespace(t);
    assert t[..j] == s[i..i + j];
    assert forall k :: i + j <= k < |s| ==> s[k] == t[k - i];
    t[..j]
  }

  /** Trimming leaves a string without whitespace at either end as it is;
      in particular trimming twice is trimming once. */
  lemma TrimTrimmed(s: string)
    requires |s| > 0 ==> !IsJsWhitespace(s[0]) && !IsJsWhitespace(s[|s| - 1])
    ensures Trim(s) == s
    ensures Trim(Trim(s)) == Trim(s)
  {
    assert LeadingWhitespace(s) == 0;
    assert s[0..] == s;
  }

  /* ---------------- line endings ---------------- */

  /** `text.replace(/\r\n|\r/g, "\n")`: every CR LF pair and every lone CR
      becomes one LF. */
  function NormalizeLineEndings(s: string): (r: string)
    ensures '\r' !in r
    ensures |r| <= |s|
    ensures |r| == 0 <==> |s| == 0
    ensures '\r' !in s ==> r == s
  {
    if |s| == 0 then s
    else if s[0] == '\r' then
      if |s| > 1 && s[1] == '\n' then "\n" + NormalizeLineEndings(s[2..])
      else "\n" + NormalizeLineEndings(s[1..])
    else
      assert s == [s[0]] + s[1..];
      [s[0]] + NormalizeLineEndings(s[1..])
  }

  /** The characters of `s` that are neither CR nor LF, in order. */
  function LineContent(s: string): string {
    if |s| == 0 then ""
    else if s[0] == '\r' || s[0] == '\n' then LineContent(s[1..])
    else [s[0]] + LineContent(s[1..])
  }

  lemma LineContentAppend(a: string, b: string)
    ensures LineContent(a + b) == LineContent(a) + LineContent(b)
  {
    if |a| > 0 {
      assert (a + b)[1..] == a[1..] + b;
      LineContentAppend(a[1..], b);
    } else {
      assert a + b == b;
    }
  }

  /** Rewriting line endings keeps every other character, in order, and is
      idempotent. */
  lemma {:induction false} NormalizeLineEndingsKeepsContent(s: string)
    ensures LineContent(NormalizeLineEndings(s)) == LineContent(s)
    ensures NormalizeLineEndings(NormalizeLineEndings(s)) == NormalizeLineEndings(s)
  {
    if |s| > 0 {
      if s[0] == '\r' {
        if |s| > 1 && s[1] == '\n' {
          NormalizeLineEndingsKeepsContent(s[2..]);
          LineContentAppend("\n", NormalizeLineEndings(s[2..]));
          assert LineContent(s) == LineContent(s[1..]);
          assert s[1..][1..] == s[2..];
        } else {
          NormalizeLineEndingsKeepsContent(s[1..]);
          LineContentAppend("\n", NormalizeLineEndings(s[1..]));
        }
      } else {
        NormalizeLineEndingsKeepsContent(s[1..]);
        LineContentAppend([s[0]], NormalizeLineEndings(s[1..]));
      }
    }
  }

  /** The lines of a text: it is cut at every CR LF pair, every lone CR
      and every lone LF, and each cut removes that line break. */
  function Lines(s: string): (ls: seq<string>)
    ensures |ls| > 0
  {
    if |s| == 0 then [""]
    else if s[0] == '\r' && |s| > 1 && s[1] == '\n' then [""] + Lines(s[2..])
    else if s[0] == '\r' || s[0] == '\n' then [""] + Lines(s[1..])
    else
      var rest := Lines(s[1..]);
      [[s[0]] + rest[0]] + rest[1..]
  }

  /** Rewriting line endings keeps the lines: every CR LF pair and every
      lone CR becomes exactly one LF, in place. */
  lemma {:induction false} NormalizeLineEndingsKeepsLines(s: string)
    ensures Lines(NormalizeLineEndings(s)) == Lines(s)
  {
    if |s| > 0 {
      if s[0] == '\r' && |s| > 1 && s[1] == '\n' {
        NormalizeLineEndingsKeepsLines(s[2..]);
        var x := NormalizeLineEndings(s[2..]);
        assert ("\n" + x)[1..] == x;
      } else if s[0] == '\r' {
        NormalizeLineEndingsKeepsLines(s[1..]);
        var x := NormalizeLineEndings(s[1..]);
        assert ("\n" + x)[1..] == x;
      } else {
        NormalizeLineEndingsKeepsLines(s[1..]);
        var x := NormalizeLineEndings(s[1..]);
        assert ([s[0]] + x)[1..] == x;
      }
    }
  }

  /** How the lines of a CR-free text start. */
  lemma LinesOfCrFree(s: string)
    requires '\r' !in s
    ensures |s| == 0 ==> Lines(s) == [""]
    ensures |s| > 0 && s[0] == '\n' ==> Lines(s) == [""] + Lines(s[1..])
    ensures |s| > 0 && s[0] != '\n' ==>
              Lines(s)[0] == [s[0]] + Lines(s[1..])[0] && Lines(s)[1..] == Lines(s[1..])[1..]
  {
  }

  /** A text without CR is determined by its lines; with the lemma above,
      the normalised text is the one CR-free text with the lines of `s`. */
  lemma {:induction false} LinesDetermineText(a: string, b: string)
    requires '\r' !in a && '\r' !in b
    requires Lines(a) == Lines(b)
    ensures a == b
    decreases |a|
  {
    LinesOfCrFree(a);
    LinesOfCrFree(b);
    if |a| == 0 {
    } else if a[0] == '\n' {
      assert |b| > 0 && b[0] == '\n';
      assert Lines(a[1..]) == Lines(a)[1..] == Lines(b)[1..] == Lines(b[1..]);
      LinesDetermineText(a[1..], b[1..]);
      assert a == [a[0]] + a[1..] && b == [b[0]] + b[1..];
    } else {
      var ra := Lines(a[1..]);
      assert Lines(a)[0] == [a[0]] + ra[0];
      assert |b| > 0 && b[0] != '\n';
      var rb := Lines(b[1..]);
      assert [a[0]] + ra[0] == [b[0]] + rb[0];
      assert a[0] == ([a[0]] + ra[0])[0] == b[0];
      assert ra[0] == ([a[0]] + ra[0])[1..] == rb[0];
      assert ra[1..] == Lines(a)[1..] == rb[1..];
      assert ra == [ra[0]] + ra[1..] == rb;
      LinesDetermineText(a[1..], b[1..]);
      assert a == [a[0]] + a[1..] && b == [b[0]] + b[1..];
    }
  }

  /* ---------------- UTF-16 length ---------------- */

  /** JavaScript's `length`: characters outside the Basic Multilingual
      Plane count as two UTF-16 code units. */
  function Utf16Length(s: string): (n: nat)
    ensures |s| <= n <= 2 * |s|
    ensures (forall k :: 0 <= k < |s| ==> s[k] as int < 0x10000) ==> n == |s|
  {
    if |s| == 0 then 0 else (if s[0] as int >= 0x10000 then 2 else 1) + Utf16Length(s[1..])
  }
}

=== FILE: types.dfy ===
/** Type resolution (generate.js `getParamType`, `getParamDim`,
    `isRepeatingParameter` and the `getArrayDimensionalityAndType*`
    helpers): a type annotation becomes a host value type, a
    dimensionality and a repeating flag. */
module Types {
  import opened Common
  import opened Log
  import opened Syntax
  import opened Metadata

  /** `TYPE_MAPPINGS`: the value type of a syntax kind, if it has one. */
  function TypeMapping(k: SyntaxKind): Option<ValueType> {
    match k
    case KeywordKind(NumberKeyword) => Some(Number)
    case KeywordKind(StringKeyword) => Some(String)
    case KeywordKind(BooleanKeyword) => Some(Boolean)
    case KeywordKind(_) => Some(Any)
    case UnionType => Some(Any)
    case TupleType => Some(Any)
    case _ => None
  }

  /** Membership in `TYPE_MAPPINGS_SIMPLE`: the number, string, boolean
      and any keywords. */
  predicate IsSimpleKeyword(t: TypeNode) {
    t.KeywordType? && t.keyword in {NumberKeyword, StringKeyword, BooleanKeyword, AnyKeyword}
  }

  /** Array nesting depth and the kind of the innermost element. */
  datatype ArrayShape = ArrayShape(dimensionality: nat, elementKind: SyntaxKind)

  /** The shape reported for anything that is not recognised as an array. */
  const NoArray := ArrayShape(0, KeywordKind(AnyKeyword))

  /* ---------------- array syntax: T[] ---------------- */

  /** The `while (ts.isArrayTypeNode(nodeCheck))` loop: one more dimension
      for every further `[]`, and the kind of the node where it stops. */
  function ArrayWalk(nodeCheck: TypeNode, dimensionality: nat): ArrayShape {
    if nodeCheck.ArrayNode? then ArrayWalk(nodeCheck.elementType, dimensionality + 1)
    else ArrayShape(dimensionality, Kind(nodeCheck))
  }

  /** `getArrayDimensionalityAndTypeForArrayTypeNode`. */
  function ArrayNodeShape(node: TypeNode): ArrayShape
    requires node.ArrayNode?
  {
    ArrayWalk(node.elementType, 1)
  }

  /** Number of nested `[]` around a type. */
  function ArrayNesting(t: TypeNode): nat {
    if t.ArrayNode? then 1 + ArrayNesting(t.elementType) else 0
  }

  /** The element type inside all nested `[]`. */
  function Innermost(t: TypeNode): (r: TypeNode)
    ensures !r.ArrayNode?
  {
    if t.ArrayNode? then Innermost(t.elementType) else t
  }

  lemma {:induction false} ArrayWalkCounts(t: TypeNode, d: nat)
    ensures ArrayWalk(t, d) == ArrayShape(d + ArrayNesting(t), Kind(Innermost(t)))
  {
    if t.ArrayNode? {
      ArrayWalkCounts(t.elementType, d + 1);
    }
  }

  /** For array syntax the depth is the number of nested `[]`, and the
      innermost element supplies the kind. */
  lemma ArrayNodeShapeSpec(node: TypeNode)
    requires node.ArrayNode?
    ensures ArrayNodeShape(node) == ArrayShape(ArrayNesting(node), Kind(Innermost(node)))
  {
    ArrayWalkCounts(node.elementType, 1);
  }

  /* ---------------- generic syntax: Array<T> ---------------- */

  /** The `while (nodeCheck.typeArguments)` loop: it follows first type
      arguments, and each time the first argument is a simple keyword it
      records the current level and that keyword's kind. */
  function RefWalk(nodeCheck: TypeNode, count: nat, found: ArrayShape): ArrayShape
    decreases nodeCheck
  {
    if nodeCheck.RefNode? && |nodeCheck.typeArguments| > 0 then
      var first := nodeCheck.typeArguments[0];
      RefWalk(first, count + 1, if IsSimpleKeyword(first) then ArrayShape(count, Kind(first)) else found)
    else found
  }

  /** `getArrayDimensionalityAndTypeForReferenceNode`: only a reference
      with exactly one type argument is walked. */
  function RefNodeShape(node: TypeNode): ArrayShape
    requires node.RefNode?
  {
    if |node.typeArguments| == 1 then RefWalk(node, 1, NoArray) else NoArray
  }

  /** The chain of first type arguments below a node: level 1 is its own
      first argument, level 2 that argument's first argument, and so on. */
  function FirstArguments(t: TypeNode): seq<TypeNode>
    decreases t
  {
    if t.RefNode? && |t.typeArguments| > 0 then [t.typeArguments[0]] + FirstArguments(t.typeArguments[0])
    else []
  }

  /** The deepest index of `chain` holding a simple keyword. */
  function DeepestSimple(chain: seq<TypeNode>): (r: Option<nat>)
    ensures r.Some? ==> r.value < |chain| && IsSimpleKeyword(chain[r.value])
                        && forall k :: r.value < k < |chain| ==> !IsSimpleKeyword(chain[k])
    ensures r.None? <==> forall k :: 0 <= k < |chain| ==> !IsSimpleKeyword(chain[k])
  {
    if |chain| == 0 then None
    else if IsSimpleKeyword(chain[|chain| - 1]) then Some(|chain| - 1)
    else DeepestSimple(chain[..|chain| - 1])
  }

  lemma DeepestSimpleCons(first: TypeNode, rest: seq<TypeNode>)
    ensures DeepestSimple([first] + rest) ==
      match DeepestSimple(rest)
      case Some(k) => Some(k + 1)
      case None => if IsSimpleKeyword(first) then Some(0) else None
  {
    var chain := [first] + rest;
    assert forall k :: 0 < k < |chain| ==> chain[k] == rest[k - 1];
    match DeepestSimple(rest)
    case Some(k) => {
      assert chain[k + 1] == rest[k];
    }
    case None => {
      assert chain[0] == first;
      assert forall k :: 0 < k < |chain| ==> !IsSimpleKeyword(chain[k]);
    }
  }

  lemma {:induction false} RefWalkFindsDeepest(n: TypeNode, count: nat, found: ArrayShape)
    ensures var chain := FirstArguments(n);
            RefWalk(n, count, found) ==
              match DeepestSimple(chain)
              case Some(k) => ArrayShape(count + k, Kind(chain[k]))
              case None => found
    decreases n
  {
    if n.RefNode? && |n.typeArguments| > 0 {
      var first := n.typeArguments[0];
      var found' := if IsSimpleKeyword(first) then ArrayShape(count, Kind(first)) else found;
      RefWalkFindsDeepest(first, count + 1, found');
      DeepestSimpleCons(first, FirstArguments(first));
    }
  }

  /** For a type reference with exactly one type argument, the depth is the
      deepest level whose first argument is a simple keyword (and that
      keyword supplies the kind), or 0 with the `any` kind when there is
      no such level. */
  lemma RefNodeShapeSpec(node: TypeNode)
    requires node.RefNode? && |node.typeArguments| == 1
    ensures var chain := FirstArguments(node);
            var r := RefNodeShape(node);
            && (r.dimensionality == 0 <==> forall k :: 0 <= k < |chain| ==> !IsSimpleKeyword(chain[k]))
            && (r.dimensionality == 0 ==> r.elementKind == KeywordKind(AnyKeyword))
            && (r.dimensionality > 0 ==>
                  && r.dimensionality <= |chain|
                  && IsSimpleKeyword(chain[r.dimensionality - 1])
                  && r.elementKind == Kind(chain[r.dimensionality - 1])
                  && forall k :: r.dimensionality <= k < |chain| ==> !IsSimpleKeyword(chain[k]))
  {
    RefWalkFindsDeepest(node, 1, NoArray);
  }

  /* ---------------- the three resolvers ---------------- */

  /** `getArrayDimensionalityAndType`. */
  function ArrayShapeOf(t: TypeNode): ArrayShape {
    if t.ArrayNode? then ArrayNodeShape(t)
    else if t.RefNode? then RefNodeShape(t)
    else NoArray
  }

  /** `getParamType`: the value type of an optional annotation, with at most
      one diagnostic. The type is `None` (the source's `undefined`) exactly
      when the kind reached has no mapping, and that is reported at the
      node. */
  function ParamType(t: Option<TypeNode>, enumNames: seq<string>): (r: (Option<ValueType>, seq<Diagnostic>))
    ensures |r.1| <= 1 && AllOfCategory(r.1, Typing)
    ensures t.None? ==> r == (Some(Any), [])
    ensures r.0.None? <==> t.Some? && r.1 == [Diagnostic(UnmappedType, t.value.pos)]
    ensures t.Some? && t.value.RefNode? && t.value.typeName in enumNames ==> r == (Some(Any), [])
    ensures t.Some? && t.value.RefNode? && t.value.typeName !in enumNames && t.value.typeName != "Array" ==>
              r == (Some(Any), [Diagnostic(InvalidType(t.value.typeName), t.value.pos)])
    ensures t.Some? && !t.value.RefNode? && !t.value.ArrayNode? ==> r.0 == TypeMapping(Kind(t.value))
    ensures (t.Some? && t.value.RefNode? && t.value.typeName == "Array" && "Array" !in enumNames &&
             |t.value.typeArguments| != 1) ==> r == (Some(Any), [])
  {
    match t
    case None => (Some(Any), [])
    case Some(node) =>
      if node.RefNode? && node.typeName in enumNames then (Some(Any), [])
      else if node.RefNode? && node.typeName != "Array" then
        (Some(Any), [Diagnostic(InvalidType(node.typeName), node.pos)])
      else
        var kind := if node.RefNode? || node.ArrayNode? then ArrayShapeOf(node).elementKind else Kind(node);
        var ty := TypeMapping(kind);
        (ty, if ty.None? then [Diagnostic(UnmappedType, node.pos)] else [])
  }

  /** A plain annotation takes its type from `TYPE_MAPPINGS`: `number`,
      `string` and `boolean` keep their names, the other keywords, unions
      and tuples become `any`, and any other node is unmapped and
      reported. */
  lemma PlainAnnotationTypes(t: TypeNode, enumNames: seq<string>)
    requires !t.RefNode? && !t.ArrayNode?
    ensures var r := ParamType(Some(t), enumNames);
            && (t.KeywordType? && t.keyword == NumberKeyword ==> r == (Some(Number), []))
            && (t.KeywordType? && t.keyword == StringKeyword ==> r == (Some(String), []))
            && (t.KeywordType? && t.keyword == BooleanKeyword ==> r == (Some(Boolean), []))
            && (t.KeywordType? && t.keyword in {AnyKeyword, ObjectKeyword, VoidKeyword, EnumKeyword} ==> r == (Some(Any), []))
            && (t.UnionNode? || t.TupleNode? ==> r == (Some(Any), []))
            && (t.OtherNode? ==> r == (None, [Diagnostic(UnmappedType, t.pos)]))
  {
  }

  /** `getParamDim`. */
  function ParamDim(t: Option<TypeNode>): Dimensionality {
    if t.Some? && (t.value.RefNode? || t.value.ArrayNode?) && ArrayShapeOf(t.value).dimensionality > 1
    then Matrix else Scalar
  }

  /** `isRepeatingParameter`: set for one- and three-dimensional arrays only. */
  predicate IsRepeatingParameter(t: Option<TypeNode>) {
    t.Some? && (t.value.RefNode? || t.value.ArrayNode?) && ArrayShapeOf(t.value).dimensionality in {1, 3}
  }

  /** Array syntax `T[]...[]`: the type is that of the innermost element,
      the annotation is a matrix iff there are at least two `[]`, and it is
      repeating iff there are exactly one or exactly three. */
  lemma ArraySyntaxClassification(t: TypeNode, enumNames: seq<string>)
    requires t.ArrayNode?
    ensures ParamType(Some(t), enumNames).0 == TypeMapping(Kind(Innermost(t)))
    ensures ParamDim(Some(t)) == Matrix <==> ArrayNesting(t) > 1
    ensures IsRepeatingParameter(Some(t)) <==> ArrayNesting(t) == 1 || ArrayNesting(t) == 3
  {
    ArrayNodeShapeSpec(t);
  }

  /** `Array<...>` syntax: with `k` the deepest level of the first-argument
      chain holding a simple keyword, the type is that keyword's, the
      annotation is a matrix iff `k >= 2`, and repeating iff `k` is 1 or 3;
      with no such level it is a scalar `any`. */
  lemma GenericArrayClassification(t: TypeNode, enumNames: seq<string>)
    requires t.RefNode? && t.typeName == "Array" && "Array" !in enumNames
    requires |t.typeArguments| == 1
    ensures var chain := FirstArguments(t);
            match DeepestSimple(chain)
            case Some(k) =>
              && ParamType(Some(t), enumNames) == (TypeMapping(Kind(chain[k])), [])
              && (ParamDim(Some(t)) == Matrix <==> k + 1 > 1)
              && (IsRepeatingParameter(Some(t)) <==> k + 1 == 1 || k + 1 == 3)
            case None =>
              && ParamType(Some(t), enumNames) == (Some(Any), [])
              && ParamDim(Some(t)) == Scalar
              && !IsRepeatingParameter(Some(t))
  {
    RefWalkFindsDeepest(t, 1, NoArray);
    var chain := FirstArguments(t);
    match DeepestSimple(chain)
    case Some(k) => {
      assert TypeMapping(Kind(chain[k])).Some?;
    }
    case None => {
    }
  }
}

=== FILE: validate.dfy ===
/** Ids, display names and repeats (generate.js `normalizeCustomFunctionId`,
    the id/name split of the `@customfunction` comment, `validateId`,
    `validateName`, `checkForDuplicate` and `areStringsEqual`). */
module Validate {
  import opened Text
  import opened Log
  import opened Metadata

  /** Longest id or name accepted, in UTF-16 code units. */
  const MAX_LENGTH := 128

  /* ---------------- derivation ---------------- */

  /** `normalizeCustomFunctionId`: upper-casing (the empty id stays empty). */
  function NormalizeId(id: string): (r: string)
    ensures |r| == |id|
    ensures Upper(r) == r
    ensures CaseInsensitiveEqual(r, id)
  {
    UpperIdempotent(id);
    CaseInsensitiveIffSameUpper(Upper(id), id);
    Upper(id)
  }

  /** The id and display name of a function: the `@customfunction` comment
      is split on single spaces; the id is the first word, or the function
      name when that word is empty, upper-cased; the display name is the
      second word as written, or the id when it is absent or empty. */
  function IdAndName(comment: string, functionName: string): (r: (string, string))
    ensures Upper(r.0) == r.0
    ensures r.1 == r.0 || (' ' !in r.1 && r.1 != "")
  {
    var words := Split(comment, ' ');
    var id := NormalizeId(if words[0] != "" then words[0] else functionName);
    var name := if |words| > 1 && words[1] != "" then words[1] else id;
    (id, name)
  }

  /** A comment is the join of its space-free words; on such a comment the
      id is the upper-cased first word (the upper-cased function name when
      that word is empty) and the display name is the second word verbatim
      (the id when there is none or it is empty). Later words are ignored. */
  lemma IdAndNameOfWords(words: seq<string>, functionName: string)
    requires |words| >= 1
    requires forall k :: 0 <= k < |words| ==> ' ' !in words[k]
    ensures var id := Upper(if words[0] != "" then words[0] else functionName);
            IdAndName(Join(words, ' '), functionName) ==
              (id, if |words| > 1 && words[1] != "" then words[1] else id)
  {
    SplitJoin(words, ' ');
  }

  /* ---------------- validation ---------------- */

  /** The id character class `[a-zA-Z0-9._]`. */
  predicate IsIdChar(c: char) {
    ('A' <= c <= 'Z') || ('a' <= c <= 'z') || ('0' <= c <= '9') || c == '.' || c == '_'
  }

  /** An acceptable id: only id characters (the empty id qualifies) and at
      most 128 code units. */
  predicate ValidId(id: string) {
    (forall k :: 0 <= k < |id| ==> IsIdChar(id[k])) && Utf16Length(id) <= MAX_LENGTH
  }

  /** `validateId`: one diagnostic for a character outside the class, one
      for excess length, and none for an acceptable id. */
  function ValidateId(id: string, pos: Pos): (r: seq<Diagnostic>)
    ensures |r| <= 2 && AllOfCategory(r, Format)
    ensures Diagnostic(IdInvalidCharacters(id), pos) in r <==> exists k :: 0 <= k < |id| && !IsIdChar(id[k])
    ensures Diagnostic(IdTooLong, pos) in r <==> Utf16Length(id) > MAX_LENGTH
    ensures r == [] <==> ValidId(id)
  {
    (if forall k :: 0 <= k < |id| ==> IsIdChar(id[k]) then [] else [Diagnostic(IdInvalidCharacters(id), pos)])
    + (if Utf16Length(id) > MAX_LENGTH then [Diagnostic(IdTooLong, pos)] else [])
  }

  /** The name character class `[\pL0-9._]`, for a given letter class. */
  predicate IsNameChar(c: char, letter: char -> bool) {
    letter(c) || ('0' <= c <= '9') || c == '.' || c == '_'
  }

  /** The pattern `^[\pL][\pL0-9._]*$`. */
  predicate MatchesNamePattern(name: string, letter: char -> bool) {
    |name| > 0 && letter(name[0]) && forall k :: 1 <= k < |name| ==> IsNameChar(name[k], letter)
  }

  /** An acceptable display name: a letter first, only name characters,
      at most 128 code units. */
  predicate ValidName(name: string, letter: char -> bool) {
    && |name| > 0
    && letter(name[0])
    && (forall k :: 0 <= k < |name| ==> IsNameChar(name[k], letter))
    && Utf16Length(name) <= MAX_LENGTH
  }

  /** `validateName`: the empty name gets the missing, not-a-letter-first
      and bad-characters diagnostics; any other name gets not-a-letter-first
      when its first character is no letter, bad-characters when the whole
      pattern fails (so also when the first character is no letter), and
      too-long beyond 128 code units. */
  function ValidateName(name: string, pos: Pos, letter: char -> bool): (r: seq<Diagnostic>)
    ensures AllOfCategory(r, Format)
    ensures name == "" ==>
              r == [Diagnostic(NameMissing, pos), Diagnostic(NameNotLetterFirst(name), pos),
                    Diagnostic(NameInvalidCharacters(name), pos)]
    ensures name != "" ==> Diagnostic(NameMissing, pos) !in r
    ensures Diagnostic(NameNotLetterFirst(name), pos) in r <==> name == "" || !letter(name[0])
    ensures Diagnostic(NameInvalidCharacters(name), pos) in r <==>
              name == "" || !letter(name[0]) || exists k :: 0 <= k < |name| && !IsNameChar(name[k], letter)
    ensures Diagnostic(NameTooLong, pos) in r <==> Utf16Length(name) > MAX_LENGTH
    ensures r == [] <==> ValidName(name, letter)
  {
    (if name == "" then [Diagnostic(NameMissing, pos)] else [])
    + (if |name| > 0 && letter(name[0]) then [] else [Diagnostic(NameNotLetterFirst(name), pos)])
    + (if MatchesNamePattern(name, letter) then [] else [Diagnostic(NameInvalidCharacters(name), pos)])
    + (if Utf16Length(name) > MAX_LENGTH then [Diagnostic(NameTooLong, pos)] else [])
  }

  /* ---------------- repeats ---------------- */

  /** `checkForDuplicate`: some earlier entry equals `item` ignoring case. */
  function CheckForDuplicate(list: seq<string>, item: string): (r: bool)
    ensures r <==> exists i :: 0 <= i < |list| && CaseInsensitiveEqual(list[i], item)
  {
    if |list| == 0 then false
    else
      var r := CheckForDuplicate(list[..|list| - 1], item) || CaseInsensitiveEqual(list[|list| - 1], item);
      assert forall i :: 0 <= i < |list| - 1 ==> list[..|list| - 1][i] == list[i];
      r
  }

  /** Among normalised ids, a case-insensitive repeat is an exact repeat. */
  lemma {:induction false} NormalizedIdRepeats(ids: seq<string>, id: string)
    requires forall i :: 0 <= i < |ids| ==> Upper(ids[i]) == ids[i]
    requires Upper(id) == id
    ensures CheckForDuplicate(ids, id) <==> id in ids
  {
    forall i | 0 <= i < |ids|
      ensures CaseInsensitiveEqual(ids[i], id) <==> ids[i] == id
    {
      CaseInsensitiveIffSameUpper(ids[i], id);
    }
  }
}

=== FILE: walk.dfy ===
/** The extractor (generate.js `parseTree` and its `visit`): a walk over the
    function declarations of a file, in source order, that turns each
    top-level one tagged `@customfunction` into a metadata record, an
    association and a list of diagnostics, and checks the three name
    spaces for case-insensitive repeats.

    The walk is written for any extraction of the records (`extract`), and
    its lemmas assume only what every extraction guarantees (`Sound`);
    `ParseTree` runs it with the extraction of the `Extract` module. */
module Walk {
  import opened Common
  import opened Text
  import opened Log
  import opened Syntax
  import opened Metadata
  import opened JsDoc
  import opened Validate
  import opened Roles
  import opened Options
  import opened Results
  import opened Extract

  /** The repeat diagnostic of `item` against the names seen so far. */
  function RepeatDiagnostic(seen: seq<string>, item: string, ns: Namespace, pos: Pos): (r: seq<Diagnostic>)
    ensures AllOfCategory(r, Structural)
    ensures DuplicateCount(r, ns) == (if CheckForDuplicate(seen, item) then 1 else 0)
    ensures forall other :: other != ns ==> DuplicateCount(r, other) == 0
    ensures r != [] ==> r == [Diagnostic(Duplicate(ns, item), pos)]
  {
    if CheckForDuplicate(seen, item) then
      var r := [Diagnostic(Duplicate(ns, item), pos)];
      assert r[..0] == [];
      r
    else []
  }

  /** Counting repeats over the four parts of a declaration's diagnostics. */
  lemma RepeatCounts(functionErrors: seq<Diagnostic>, checks: seq<Diagnostic>, nameRepeat: seq<Diagnostic>,
                     idRepeat: seq<Diagnostic>, ns: Namespace)
    ensures DuplicateCount(functionErrors + checks + nameRepeat + idRepeat, ns) ==
              DuplicateCount(functionErrors, ns) + DuplicateCount(checks, ns) + DuplicateCount(nameRepeat, ns) + DuplicateCount(idRepeat, ns)
  {
    DuplicateCountAppend(functionErrors, checks, ns);
    DuplicateCountAppend(functionErrors + checks, nameRepeat, ns);
    DuplicateCountAppend(functionErrors + checks + nameRepeat, idRepeat, ns);
  }

  /** The three repeat diagnostics a tagged declaration can get, all at
      its own position: its function name, its display name, its id. */
  function PossibleRepeats(d: FuncDecl, m: FunctionMeta): seq<Diagnostic> {
    [Diagnostic(Duplicate(SourceNames, d.name), d.pos),
     Diagnostic(Duplicate(DisplayNames, m.name), d.pos),
     Diagnostic(Duplicate(Ids, m.id), d.pos)]
  }

  /** The diagnostics of a tagged declaration in the order the source
      reports them: repeated function name, the extraction's own
      (parameters, result, options, id, name), repeated display name,
      repeated id. Each repeat check adds exactly one diagnostic of its own
      name space when it fires, and nothing else reports a repeat. */
  function Errors(functionNames: seq<string>, metadataNames: seq<string>, ids: seq<string>, d: FuncDecl, x: Extraction): (r: seq<Diagnostic>)
    requires NoRepeats(x.checks)
    ensures DuplicateCount(r, SourceNames) == (if CheckForDuplicate(functionNames, d.name) then 1 else 0)
    ensures DuplicateCount(r, DisplayNames) == (if CheckForDuplicate(metadataNames, x.meta.name) then 1 else 0)
    ensures DuplicateCount(r, Ids) == (if CheckForDuplicate(ids, x.meta.id) then 1 else 0)
    ensures forall k :: k in x.checks ==> k in r
    ensures forall k :: k in r ==> k in x.checks || k in PossibleRepeats(d, x.meta)
    ensures r == x.checks <==>
              !CheckForDuplicate(functionNames, d.name) && !CheckForDuplicate(metadataNames, x.meta.name)
              && !CheckForDuplicate(ids, x.meta.id)
  {
    var functionErrors := RepeatDiagnostic(functionNames, d.name, SourceNames, d.pos);
    var nameRepeat := RepeatDiagnostic(metadataNames, x.meta.name, DisplayNames, d.pos);
    var idRepeat := RepeatDiagnostic(ids, x.meta.id, Ids, d.pos);
    RepeatCounts(functionErrors, x.checks, nameRepeat, idRepeat, SourceNames);
    RepeatCounts(functionErrors, x.checks, nameRepeat, idRepeat, DisplayNames);
    RepeatCounts(functionErrors, x.checks, nameRepeat, idRepeat, Ids);
    functionErrors + x.checks + nameRepeat + idRepeat
  }

  /* ---------------- the walk ---------------- */

  /** What `visit` keeps between declarations: the three name lists it
      checks for repeats and the output built so far. */
  datatype WalkState = WalkState(
    functionNames: seq<string>,
    metadataNames: seq<string>,
    ids: seq<string>,
    out: ParseTreeResult)

  const Initial := WalkState([], [], [], ParseTreeResult([], [], []))

  /** What the walk relies on from an extraction: upper-case ids, and no
      repeat diagnostics of its own. */
  ghost predicate Sound(extract: FuncDecl -> Extraction) {
    forall d :: Upper(extract(d).meta.id) == extract(d).meta.id && NoRepeats(extract(d).checks)
  }

  /** The lists kept in step: one record, extra, association, display name
      and id per tagged declaration, the association and the extra naming
      the same function, the id listed being the record's (upper-case) id
      and the display name listed being the record's name. */
  predicate Consistent(st: WalkState) {
    var out := st.out;
    && |out.extras| == |out.functions| && |out.associate| == |out.functions|
    && |st.ids| == |out.functions| && |st.metadataNames| == |out.functions|
    && forall i :: 0 <= i < |out.functions| ==>
         && st.ids[i] == out.functions[i].id
         && st.metadataNames[i] == out.functions[i].name
         && out.associate[i].id == out.functions[i].id
         && out.associate[i].functionName == out.extras[i].javascriptFunctionName
         && Upper(out.functions[i].id) == out.functions[i].id
  }

  /** One declaration of the walk, with its extraction `x`. A nested
      declaration is skipped; a top-level one joins the function names
      (after its own repeat check); a tagged top-level one also appends
      one record, one extra and one association. */
  function Step(st: WalkState, d: FuncDecl, x: Extraction): (r: WalkState)
    requires NoRepeats(x.checks)
    ensures !d.topLevel ==> r == st
    ensures d.topLevel ==> r.functionNames == st.functionNames + [d.name]
    ensures d.topLevel && !IsCustomFunction(d) ==> r == st.(functionNames := st.functionNames + [d.name])
    ensures d.topLevel && IsCustomFunction(d) ==>
              && r.out.functions == st.out.functions + [x.meta]
              && r.out.associate == st.out.associate + [Association(d.name, x.meta.id)]
              && r.out.extras == st.out.extras + [Extra(Errors(st.functionNames, st.metadataNames, st.ids, d, x), d.name)]
              && r.ids == st.ids + [x.meta.id]
              && r.metadataNames == st.metadataNames + [x.meta.name]
  {
    if !d.topLevel then st
    else
      var functionNames := st.functionNames + [d.name];
      if !IsCustomFunction(d) then st.(functionNames := functionNames)
      else
        var errors := Errors(st.functionNames, st.metadataNames, st.ids, d, x);
        var out := ParseTreeResult(
          st.out.associate + [Association(d.name, x.meta.id)],
          st.out.extras + [Extra(errors, d.name)],
          st.out.functions + [x.meta]);
        WalkState(functionNames, st.metadataNames + [x.meta.name], st.ids + [x.meta.id], out)
  }

  /** The walk over the declarations `ds`, in order. */
  function WalkAll(ds: seq<FuncDecl>, extract: FuncDecl -> Extraction): WalkState
    requires Sound(extract)
  {
    if |ds| == 0 then Initial
    else Step(WalkAll(ds[..|ds| - 1], extract), ds[|ds| - 1], extract(ds[|ds| - 1]))
  }

  /** The names of the top-level declarations among `ds`, in order. */
  function TopLevelNames(ds: seq<FuncDecl>): seq<string> {
    if |ds| == 0 then []
    else TopLevelNames(ds[..|ds| - 1]) + (if ds[|ds| - 1].topLevel then [ds[|ds| - 1].name] else [])
  }

  /** The top-level declarations among `ds` tagged `@customfunction`. */
  function Tagged(ds: seq<FuncDecl>): seq<FuncDecl> {
    if |ds| == 0 then []
    else Tagged(ds[..|ds| - 1]) + (if ds[|ds| - 1].topLevel && IsCustomFunction(ds[|ds| - 1]) then [ds[|ds| - 1]] else [])
  }

  /** Every step keeps the lists in step. */
  lemma StepConsistent(st: WalkState, d: FuncDecl, x: Extraction)
    requires Consistent(st) && NoRepeats(x.checks) && Upper(x.meta.id) == x.meta.id
    ensures Consistent(Step(st, d, x))
  {
  }

  /** The walk's invariant: the lists stay in step, the function names are
      those of every top-level declaration, and the i-th record, extra and
      association belong to the i-th tagged top-level declaration. */
  lemma {:induction false} WalkShape(ds: seq<FuncDecl>, extract: FuncDecl -> Extraction)
    requires Sound(extract)
    ensures var st := WalkAll(ds, extract);
            && Consistent(st)
            && st.functionNames == TopLevelNames(ds)
            && |st.out.functions| == |Tagged(ds)|
            && forall i :: 0 <= i < |Tagged(ds)| ==>
                 && st.out.extras[i].javascriptFunctionName == Tagged(ds)[i].name
                 && st.out.associate[i] == Association(Tagged(ds)[i].name, st.out.functions[i].id)
                 && st.out.functions[i] == extract(Tagged(ds)[i]).meta
                 && forall k :: k in extract(Tagged(ds)[i]).checks ==> k in st.out.extras[i].errors
  {
    if |ds| > 0 {
      var init := ds[..|ds| - 1];
      var d := ds[|ds| - 1];
      WalkShape(init, extract);
      var st := WalkAll(init, extract);
      StepConsistent(st, d, extract(d));
      if d.topLevel && IsCustomFunction(d) {
        assert Tagged(ds) == Tagged(init) + [d];
      }
    }
  }

  /** The i-th extra holds nothing but the diagnostics of its declaration's
      extraction and that declaration's repeat diagnostics. */
  lemma {:induction false} WalkErrorsBounded(ds: seq<FuncDecl>, extract: FuncDecl -> Extraction)
    requires Sound(extract)
    ensures var out := WalkAll(ds, extract).out;
            && |out.extras| == |Tagged(ds)|
            && forall i, k :: 0 <= i < |Tagged(ds)| && k in out.extras[i].errors ==>
                 k in extract(Tagged(ds)[i]).checks || k in PossibleRepeats(Tagged(ds)[i], extract(Tagged(ds)[i]).meta)
  {
    if |ds| > 0 {
      var init := ds[..|ds| - 1];
      var d := ds[|ds| - 1];
      WalkErrorsBounded(init, extract);
      WalkShape(init, extract);
      if d.topLevel && IsCustomFunction(d) {
        assert Tagged(ds) == Tagged(init) + [d];
      }
    }
  }

  /** Some record before the i-th has the same id. */
  predicate EarlierSameId(fs: seq<FunctionMeta>, i: nat)
    requires i < |fs|
  {
    exists j :: 0 <= j < i && fs[j].id == fs[i].id
  }

  /** Some record before the i-th has the same display name, ignoring case. */
  predicate EarlierSameName(fs: seq<FunctionMeta>, i: nat)
    requires i < |fs|
  {
    exists j :: 0 <= j < i && CaseInsensitiveEqual(fs[j].name, fs[i].name)
  }

  /** The repeat counts of the i-th extra agree with the records before it. */
  predicate RepeatsAgree(out: ParseTreeResult, i: nat)
    requires i < |out.functions| && |out.extras| == |out.functions|
  {
    && DuplicateCount(out.extras[i].errors, Ids) == (if EarlierSameId(out.functions, i) then 1 else 0)
    && DuplicateCount(out.extras[i].errors, DisplayNames) == (if EarlierSameName(out.functions, i) then 1 else 0)
  }

  /** Appending a record does not change what precedes the earlier ones. */
  lemma EarlierUnchanged(fs: seq<FunctionMeta>, m: FunctionMeta, i: nat)
    requires i < |fs|
    ensures EarlierSameId(fs + [m], i) == EarlierSameId(fs, i)
    ensures EarlierSameName(fs + [m], i) == EarlierSameName(fs, i)
  {
    assert forall j :: 0 <= j <= i ==> (fs + [m])[j] == fs[j];
  }

  /** The repeat checks of the walk state speak about the records before. */
  lemma RepeatsOfLast(st: WalkState, m: FunctionMeta)
    requires Consistent(st) && Upper(m.id) == m.id
    ensures var fs := st.out.functions + [m];
            && (CheckForDuplicate(st.ids, m.id) <==> EarlierSameId(fs, |st.out.functions|))
            && (CheckForDuplicate(st.metadataNames, m.name) <==> EarlierSameName(fs, |st.out.functions|))
  {
    var fs := st.out.functions + [m];
    var n := |st.out.functions|;
    assert fs[n] == m;
    NormalizedIdRepeats(st.ids, m.id);
    if m.id in st.ids {
      var j :| 0 <= j < |st.ids| && st.ids[j] == m.id;
      assert fs[j].id == m.id;
    }
    if EarlierSameId(fs, n) {
      var j :| 0 <= j < n && fs[j].id == fs[n].id;
      assert st.ids[j] == m.id;
    }
    if CheckForDuplicate(st.metadataNames, m.name) {
      var j :| 0 <= j < |st.metadataNames| && CaseInsensitiveEqual(st.metadataNames[j], m.name);
      assert fs[j].name == st.metadataNames[j];
    }
    if EarlierSameName(fs, n) {
      var j :| 0 <= j < n && CaseInsensitiveEqual(fs[j].name, fs[n].name);
      assert st.metadataNames[j] == fs[j].name;
    }
  }

  /** Repeats of ids and display names: the i-th extra holds a repeated-id
      diagnostic exactly when an earlier record has the same id (ids are
      upper-cased, so this is plain equality), and a repeated-name
      diagnostic exactly when an earlier record's display name is the same
      ignoring case; each at most once. */
  lemma {:induction false} WalkRepeats(ds: seq<FuncDecl>, extract: FuncDecl -> Extraction)
    requires Sound(extract)
    ensures var out := WalkAll(ds, extract).out;
            && |out.extras| == |out.functions|
            && forall i :: 0 <= i < |out.functions| ==> RepeatsAgree(out, i)
  {
    WalkShape(ds, extract);
    if |ds| > 0 {
      var init := ds[..|ds| - 1];
      var d := ds[|ds| - 1];
      WalkRepeats(init, extract);
      WalkShape(init, extract);
      var st := WalkAll(init, extract);
      if d.topLevel && IsCustomFunction(d) {
        var x := extract(d);
        var out := WalkAll(ds, extract).out;
        var n := |st.out.functions|;
        assert out.functions == st.out.functions + [x.meta];
        assert out.extras == st.out.extras + [Extra(Errors(st.functionNames, st.metadataNames, st.ids, d, x), d.name)];
        forall i | 0 <= i < n
          ensures RepeatsAgree(out, i)
        {
          EarlierUnchanged(st.out.functions, x.meta, i);
          assert RepeatsAgree(st.out, i);
          assert out.extras[i] == st.out.extras[i];
        }
        RepeatsOfLast(st, x.meta);
        assert out.extras[n].errors == Errors(st.functionNames, st.metadataNames, st.ids, d, x);
      }
    }
  }

  /** The walk only ever appends: the output after a prefix of the
      declarations is a prefix of the final output. */
  lemma {:induction false} WalkPrefix(ds: seq<FuncDecl>, extract: FuncDecl -> Extraction, k: nat)
    requires Sound(extract) && k <= |ds|
    ensures var small := WalkAll(ds[..k], extract).out;
            var out := WalkAll(ds, extract).out;
            small.functions <= out.functions && small.extras <= out.extras && small.associate <= out.associate
  {
    if k < |ds| {
      var init := ds[..|ds| - 1];
      assert init[..k] == ds[..k];
      WalkPrefix(init, extract, k);
    } else {
      assert ds[..k] == ds;
    }
  }

  /** Repeated function names: the extra of the tagged top-level
      declaration `ds[k]` holds a repeated-function-name diagnostic exactly
      when some earlier top-level declaration, tagged or not, has the same
      name ignoring case; at most one. */
  lemma WalkSourceRepeats(ds: seq<FuncDecl>, extract: FuncDecl -> Extraction, k: nat)
    requires Sound(extract)
    requires k < |ds| && ds[k].topLevel && IsCustomFunction(ds[k])
    ensures var out := WalkAll(ds, extract).out;
            var i := |Tagged(ds[..k])|;
            && i < |out.extras|
            && out.extras[i].javascriptFunctionName == ds[k].name
            && DuplicateCount(out.extras[i].errors, SourceNames) ==
                 (if CheckForDuplicate(TopLevelNames(ds[..k]), ds[k].name) then 1 else 0)
  {
    var prefix := ds[..k + 1];
    assert prefix[..k] == ds[..k];
    WalkShape(ds[..k], extract);
    WalkPrefix(ds, extract, k + 1);
    var st := WalkAll(ds[..k], extract);
    assert WalkAll(prefix, extract) == Step(st, ds[k], extract(ds[k]));
  }

  /* ---------------- the extractor ---------------- */

  /** The walk with the extraction of the `Extract` module. */
  function Extractor(enumNames: seq<string>, letter: char -> bool): (extract: FuncDecl -> Extraction)
    ensures Sound(extract)
    ensures forall d :: extract(d).meta == Record(d, enumNames)
    ensures forall d :: extract(d) == ExtractionOf(d, enumNames, letter)
  {
    d => ExtractionOf(d, enumNames, letter)
  }

  /** `parseTree`: one record, extra and association per top-level
      declaration tagged `@customfunction`, in source order; the record is
      that declaration's, the association and the extra name it, and the
      repeat diagnostics of ids and display names follow the records
      before it. The enum names are collected from the whole file before
      the walk starts. */
  function ParseTree(file: SourceFile, letter: char -> bool): (r: ParseTreeResult)
    ensures var tagged := Tagged(file.functionDecls);
            && |r.functions| == |tagged| && |r.extras| == |tagged| && |r.associate| == |tagged|
            && forall i :: 0 <= i < |tagged| ==>
                 && r.functions[i] == Record(tagged[i], file.enumNames)
                 && r.associate[i] == Association(tagged[i].name, r.functions[i].id)
                 && r.extras[i].javascriptFunctionName == tagged[i].name
                 && RepeatsAgree(r, i)
                 && (forall k :: k in ExtractionOf(tagged[i], file.enumNames, letter).checks ==> k in r.extras[i].errors)
                 && (forall k :: k in r.extras[i].errors ==>
                       k in ExtractionOf(tagged[i], file.enumNames, letter).checks || k in PossibleRepeats(tagged[i], r.functions[i]))
  {
    var extract := Extractor(file.enumNames, letter);
    WalkShape(file.functionDecls, extract);
    WalkErrorsBounded(file.functionDecls, extract);
    WalkRepeats(file.functionDecls, extract);
    WalkAll(file.functionDecls, extract).out
  }

  /** An address option without an invocation parameter is reported in
      the extra of its declaration, at the end of the parameter list. */
  lemma AddressNeedsInvocationReported(file: SourceFile, letter: char -> bool, i: nat)
    requires i < |Tagged(file.functionDecls)|
    requires var d := Tagged(file.functionDecls)[i];
             HasTag(d.tags, REQUIRES_ADDRESS) && !DeclRoles(d).Special()
    ensures var d := Tagged(file.functionDecls)[i];
            Diagnostic(AddressNeedsInvocation(RequiresAddressTag), d.parametersEnd) in ParseTree(file, letter).extras[i].errors
  {
  }

  /** What a call of `parseTree` gives: nothing when extracting some tagged
      top-level declaration throws, since the exception leaves
      `parseTree`; the output otherwise. */
  function ParseTreeOutcome(file: SourceFile, letter: char -> bool): (r: Option<ParseTreeResult>)
    ensures r.None? <==> AnyThrows(Tagged(file.functionDecls))
    ensures r.Some? ==> r.value == ParseTree(file, letter)
  {
    if AnyThrows(Tagged(file.functionDecls)) then None else Some(ParseTree(file, letter))
  }

  /** Some declaration of `ds` throws. */
  predicate AnyThrows(ds: seq<FuncDecl>) {
    exists i :: 0 <= i < |ds| && Throws(ds[i])
  }

  /** Only a declaration without a name can throw: a file whose tagged
      declarations are all named always gives its output. */
  lemma NamedNeverThrow(file: SourceFile, letter: char -> bool)
    requires forall i :: 0 <= i < |Tagged(file.functionDecls)| ==> Tagged(file.functionDecls)[i].name != ""
    ensures ParseTreeOutcome(file, letter) == Some(ParseTree(file, letter))
  {
  }

  /** A tagged declaration without a name that takes no streaming early
      return, and whose `@returns` type differs in kind from its declared
      return type, makes `parseTree` throw. */
  lemma NamelessMismatchThrows(file: SourceFile, letter: char -> bool, i: nat)
    requires i < |Tagged(file.functionDecls)|
    requires var d := Tagged(file.functionDecls)[i];
             && d.name == "" && !EarlyExit(d, DeclRoles(d), ParamTypeTexts(d.docParams))
             && d.returnType.Some? && d.docReturnType.Some? && Kind(d.returnType.value) != Kind(d.docReturnType.value)
    ensures ParseTreeOutcome(file, letter).None?
  {
  }

  /** Repeated function names in a file: the extra of the tagged top-level
      declaration `file.functionDecls[k]` reports a repeated function name
      exactly when an earlier top-level declaration, tagged or not, has the
      same name ignoring case. */
  lemma ParseTreeSourceRepeats(file: SourceFile, letter: char -> bool, k: nat)
    requires k < |file.functionDecls|
    requires file.functionDecls[k].topLevel && IsCustomFunction(file.functionDecls[k])
    ensures var ds := file.functionDecls;
            var out := ParseTree(file, letter);
            var i := |Tagged(ds[..k])|;
            && i < |out.extras|
            && out.extras[i].javascriptFunctionName == ds[k].name
            && DuplicateCount(out.extras[i].errors, SourceNames) ==
                 (if CheckForDuplicate(TopLevelNames(ds[..k]), ds[k].name) then 1 else 0)
  {
    WalkSourceRepeats(file.functionDecls, Extractor(file.enumNames, letter), k);
  }

  /** A file of one tagged top-level declaration: its record, and an extra
      holding exactly the declaration's own diagnostics, since nothing
      came before it to repeat. */
  lemma SingleDeclaration(file: SourceFile, letter: char -> bool, d: FuncDecl)
    requires file.functionDecls == [d] && d.topLevel && IsCustomFunction(d)
    ensures var x := ExtractionOf(d, file.enumNames, letter);
            var out := ParseTree(file, letter);
            && out.functions == [x.meta]
            && out.extras == [Extra(x.checks, d.name)]
            && out.associate == [Association(d.name, x.meta.id)]
  {
    var extract := Extractor(file.enumNames, letter);
    assert [d][..0] == [];
    assert WalkAll([d], extract) == Step(Initial, d, extract(d));
  }

  /** A file without tagged top-level declarations gives an empty output. */
  lemma NoTaggedNoOutput(file: SourceFile, letter: char -> bool)
    requires forall i :: 0 <= i < |file.functionDecls| ==>
               !file.functionDecls[i].topLevel || !IsCustomFunction(file.functionDecls[i])
    ensures ParseTree(file, letter) == ParseTreeResult([], [], [])
  {
    WalkUntagged(file.functionDecls, Extractor(file.enumNames, letter));
  }

  /** Declarations that are nested or untagged only collect function
      names: the walk over them produces no output. */
  lemma {:induction false} WalkUntagged(ds: seq<FuncDecl>, extract: FuncDecl -> Extraction)
    requires Sound(extract)
    requires forall i :: 0 <= i < |ds| ==> !ds[i].topLevel || !IsCustomFunction(ds[i])
    ensures WalkAll(ds, extract).out == ParseTreeResult([], [], [])
    ensures WalkAll(ds, extract).functionNames == TopLevelNames(ds)
  {
    if |ds| > 0 {
      WalkUntagged(ds[..|ds| - 1], extract);
    }
  }
}
